=== FILE: README.md ===
# HadUK-Grid request model

`API_HadUKGrid_data.py` downloads gridded UK weather data (HadUK-Grid) from the CEDA archive and
reduces it to a time series for a point or a box. Most of the script is glue around FTP, netCDF
reading and plotting. This Dafny project models the pure parts of it and proves what they compute:

- **Calendar** (`calendar.dfy`). These are the proleptic Gregorian dates of Python's `datetime`:
  the leap rule, `monthrange`, `toordinal`, `+ timedelta(days=1)`, and the script's
  `date_range_list`. Dates stop at 9999-12-31, as `datetime` does. Stepping past that date
  raises `OverflowError`, which the model returns as `None`.
- **Sequencer** (`sequencer.dfy`). It turns the two requested dates and the temporal resolution
  into the list of date fragments that name archive files.
  - `mon` gives one `YYYY01-YYYY12` per year.
  - `day` gives one `YYYYMM01-YYYYMMDD` per month, where the last day is the month's true length.
  - `day` over several years enumerates every day, maps each to its month's fragment, and
    applies `np.unique`.
- **Text and Dedup** (`text.dfy`, `dedup.dfy`). These cover `%d`/`%02d` rendering, Python's
  string order, `str.split`, `str.replace(c, '', 1)`, and `np.unique` as the sorted,
  duplicate-free arrangement of its input.
- **Reconcile** (`reconcile.dfy`). Each fragment is rendered as
  `{variable}_hadukgrid_uk_{resolution}_{mon|day}_{fragment}.nc`. The names present in the
  server listing are kept, in fragment order, and an empty result stops the run.
- **Region** (`region.dfy`). This validates the `-r` option: the `0,0` default, the field count,
  the numeric test, conversion, the latitude/longitude ranges, and the west<east, south<north
  rule for boxes. It also builds the closed outline of a box.
- **Reduce** (`reduce.dfy`). This covers:
  - the nearest-cell reduction for a point, with squared planar distance and `np.argmin`
    (the first minimum);
  - the cells inside a box, selected with `np.where` and then gathered;
  - the time window `date1 <= t <= date2`, which decides whether a row is written.
- **Seqs and Wrappers** (`seqs.dfy`, `wrappers.dfy`). These are order-preserving filtering,
  mask indexing, and `Option`/`Result`.

Floats are modelled as exact reals, and `str.isnumeric` is modelled over ASCII digits. The
server listing and the fields read from the netCDF files are inputs. Each field is flattened
longitudes, latitudes and values, together with a timestamp. The point-in-polygon test of
`matplotlib.path.Path.contains_points` is a parameter.

## Model

| member | source | states |
|---|---|---|
| Calendar.Next | API_HadUKGrid_data.py:61 | adding one day gives a valid date that is strictly later and whose `toordinal` is one more; 9999-12-31 has no successor |
| Calendar.OrdinalOrder | API_HadUKGrid_data.py:59 | the loop's `curr_date <= end_date` on valid dates agrees with the order of their day numbers, strict and equal cases both ways |
| Calendar.NextIsImmediate | API_HadUKGrid_data.py:59-61 | no valid date lies strictly between a date and the next day, so the loop skips no day |
| Calendar.DaysInMonth | API_HadUKGrid_data.py:315 | `monthrange(y, m)[1]` is between 28 and 31 |
| Calendar.MonthsFillYear | API_HadUKGrid_data.py:315 | the days before December plus December's length make up the year's length (366 in a leap year, 365 otherwise), so the month lengths tile the year |
| Calendar.DateRangeList | API_HadUKGrid_data.py:56-62 | the list fails exactly when the range is non-empty and ends on the last representable day. It is empty when start is after end. Otherwise it holds (days between)+1 dates, from start to end, each the successor of the previous one, all within [start, end] |
| Calendar.DateRangeListCovers | API_HadUKGrid_data.py:56-62 | every valid date from start to end inclusive appears in the list |
| Text.NatToString | API_HadUKGrid_data.py:310 | `%d` writes a digit string, without a leading zero, whose value is the number |
| Text.ZeroPad2 | API_HadUKGrid_data.py:316 | `%02d` writes the number as digits, exactly two of them below 100 |
| Text.LessDigitsIffValueLess | API_HadUKGrid_data.py:322 | for digit strings of equal length, Python string order is numeric order |
| Text.SplitJoin | API_HadUKGrid_data.py:155 | splitting the comma-joined fields gives the fields back |
| Text.JoinSplit | API_HadUKGrid_data.py:155 | joining the result of `split(',')` with commas restores the option text |
| Dedup.SortedDistinct | API_HadUKGrid_data.py:322 | `np.unique` returns a strictly increasing list holding exactly the input's strings |
| Dedup.StrictlyIncreasingUnique | API_HadUKGrid_data.py:322 | two strictly increasing lists with the same strings are equal, so `np.unique`'s result is determined by the set of inputs |
| Sequencer.Fragments | API_HadUKGrid_data.py:305-322 | the fragment list fails exactly for daily resolution over several years ending on 9999-12-31 (the `OverflowError` of `date_range_list`) |
| Sequencer.YearFragmentSpansYear | API_HadUKGrid_data.py:310 | a monthly fragment is the January token of its year, a dash, and the December token, whose digits denote `100*y + 1` and `100*y + 12` |
| Sequencer.MonthlyOnePerYear | API_HadUKGrid_data.py:305-310 | monthly resolution gives `year2 - year1 + 1` fragments, the `i`-th for year `year1 + i`. Every year from `year1` to `year2` has its fragment, every fragment is one of those years, and none repeats |
| Sequencer.YearFragmentOrder | API_HadUKGrid_data.py:310 | with four-digit years, an earlier year's monthly fragment is smaller in string order |
| Sequencer.MonthlyAscending | API_HadUKGrid_data.py:305-310 | with four-digit years, the monthly list is strictly increasing in string order, so it is already in the order `np.unique` gives the daily case |
| Sequencer.YearFragmentInjective | API_HadUKGrid_data.py:310 | different years give different monthly fragments |
| Sequencer.MonthlyWithinOneYear | API_HadUKGrid_data.py:305-310 | a 2020-only monthly request yields exactly `["202001-202012"]` |
| Sequencer.SingleYearDailyIsMonthSpan | API_HadUKGrid_data.py:312-316 | daily resolution within one year gives `month2 - month1 + 1` fragments, which are the months from the first to the last in calendar order |
| Sequencer.MonthFragmentSpansMonth | API_HadUKGrid_data.py:315-316 | a daily fragment is the first day of its month, a dash, and the month's last valid day, whose successor starts a new month |
| Sequencer.LeapFebruary | API_HadUKGrid_data.py:315-316 | February 2020 is `20200201-20200229` |
| Sequencer.CommonFebruary | API_HadUKGrid_data.py:315-316 | February 2019 is `20190201-20190228` |
| Sequencer.CenturyFebruary | API_HadUKGrid_data.py:315-316 | February 1900 is `19000201-19000228` (a century year that is not a leap year) |
| Sequencer.DailyWithinOneYear | API_HadUKGrid_data.py:312-316 | 2020-01-15 to 2020-03-10 daily yields the January, February (to the 29th) and March fragments, in that order |
| Sequencer.DailyFragmentInSpan | API_HadUKGrid_data.py:318-321 | before `np.unique`, a fragment comes from some listed day exactly when it is the fragment of a month from `date1`'s through `date2`'s |
| Sequencer.MultiYearDailyIsSortedSpan | API_HadUKGrid_data.py:317-322 | daily resolution over several years gives a strictly increasing, duplicate-free list holding exactly the fragments of the months from `date1`'s through `date2`'s |
| Sequencer.MonthFragmentOrder | API_HadUKGrid_data.py:321-322 | with four-digit years, string order of daily fragments is calendar order of their months |
| Sequencer.MultiYearDailyIsMonthSpan | API_HadUKGrid_data.py:317-322 | with four-digit years, the multi-year daily list is every month from `date1`'s through `date2`'s, chronologically |
| Sequencer.UniqueOrderIsLexicographic | API_HadUKGrid_data.py:317-322 | for 0999-12-31 to 1000-01-01, `np.unique` puts January 1000 before December 999 |
| Seqs.Filter | API_HadUKGrid_data.py:326-334 | the kept elements are exactly the input elements satisfying the test, in their original order |
| Reconcile.ArchiveFileName | API_HadUKGrid_data.py:328 | the file name starts with the variable and ends with the fragment followed by `.nc` |
| Reconcile.RainfallName | API_HadUKGrid_data.py:328 | rainfall at 1km, monthly, for 2020 is `rainfall_hadukgrid_uk_1km_mon_202001-202012.nc` |
| Reconcile.RequestedNameOf | API_HadUKGrid_data.py:327-328 | a name is requested exactly when some fragment renders to it |
| Reconcile.FileNameInjective | API_HadUKGrid_data.py:328 | with variable, resolution and temporal name fixed, two fragments give the same file name exactly when they are equal |
| Reconcile.Reconcile | API_HadUKGrid_data.py:326-338 | the run stops with no data exactly when no requested name is listed. Otherwise the result is a non-empty subsequence of the requested names, and it holds a name exactly when that name is both requested and listed |
| Reconcile.ReconcileMultiplicity | API_HadUKGrid_data.py:326-334 | a listed name is kept as often as it is requested; an unlisted one is never kept |
| Reconcile.ReconcileAllListed | API_HadUKGrid_data.py:326-334 | when every requested name is listed, all are kept, in order |
| Reconcile.FilesToDownload | API_HadUKGrid_data.py:305-338 | the request fails with a date overflow exactly when the fragments do. Otherwise every name in the result is a listed file name rendered from one of the fragments, and every such name is in the result |
| Reconcile.FilesToDownloadOutcome | API_HadUKGrid_data.py:326-338 | the run stops with no data exactly when the fragments exist and none of their file names is listed; otherwise the downloads are a subsequence of the requested names, so they keep fragment order |
| Reconcile.EmptyListingStops | API_HadUKGrid_data.py:336-338 | an empty server listing always stops the run |
| Reconcile.Rainfall2020 | API_HadUKGrid_data.py:305-334 | monthly rainfall at 1km for 2020 against a listing holding the 2020 file downloads exactly that file |
| Region.ParseDecimal | API_HadUKGrid_data.py:163-167 | `float()` succeeds on a field made of digits, one point and one minus sign exactly when it is a decimal literal with the minus sign, if any, in front; without a sign the value is not negative |
| Region.ParseFraction | API_HadUKGrid_data.py:163-167 | `float('w.f')` for digit strings `w`, `f` is the number the digits of `w` then `f` denote, divided by `10^len(f)`; with a leading minus it is the negation |
| Region.ParseHalfDegreeSouth | API_HadUKGrid_data.py:163-167 | `float('-0.5')` is -0.5 |
| Text.ValueConcat | API_HadUKGrid_data.py:163-167 | the digits of two strings written one after the other denote the first's number shifted left by the second's length, plus the second's number |
| Region.ParseIntToString | API_HadUKGrid_data.py:163-167 | converting `'%d' % i` gives back `i` |
| Region.PassesNumericCheck | API_HadUKGrid_data.py:159 | a field that passes the numeric test holds at least one digit and nothing but digits, points and minus signs |
| Region.NumericCheckIsLooser | API_HadUKGrid_data.py:159 | a field is a decimal literal exactly when it passes the script's numeric test and any minus sign stands in front |
| Region.MisplacedMinusPassesCheck | API_HadUKGrid_data.py:159 | `1-2` and `5-` pass the numeric test but do not convert |
| Region.ValidateRoiWith | API_HadUKGrid_data.py:151-187 | it returns "not given" exactly for the default `0,0`, and "wrong field count" exactly for other texts without 2 or 4 fields. An accepted point has two fields that convert to `lat` and `lon` in range. An accepted box has four fields that convert to `S,N,W,E` in range with W<E and S<N. Every field of an accepted region passed the numeric test |
| Region.ValidateRoiAsWritten | API_HadUKGrid_data.py:151-187 | the script's validation stops in `float()` only on a field that passed the numeric test but is no decimal literal, and on such a text the corrected validation reports a non-numeric field instead |
| Region.UnparsableField | API_HadUKGrid_data.py:155-167 | whatever numeric test is used, a conversion failure comes after every field passed that test, on a field that is no decimal literal |
| Region.ValidateRoi | API_HadUKGrid_data.py:151-187 | the corrected validation never stops in `float()` |
| Region.SameAcceptedRegions | API_HadUKGrid_data.py:151-187 | the script's validation and the corrected one accept the same texts, with the same region |
| Region.MisplacedMinusCrashes | API_HadUKGrid_data.py:155-167 | as written, `-r 1-2,0` stops in `float()`, while the corrected validation reports a non-numeric field |
| Region.PointAcceptance | API_HadUKGrid_data.py:151-167 | a point `(lat, lon)` is accepted exactly when the text is not `0,0` and has two fields that convert to a latitude in [-90, 90] and a longitude in [-180, 180] |
| Region.BoxAcceptance | API_HadUKGrid_data.py:151-184 | a box is accepted exactly when the text has four fields converting to latitudes `S`, `N` in range and longitudes `W`, `E` in range, with W<E and S<N |
| Region.PointRoundTrip | API_HadUKGrid_data.py:151-167 | whole-degree points written as `lat,lon` are read back, except the origin, whose text is the default and counts as not given |
| Region.BoxRoundTrip | API_HadUKGrid_data.py:168-184 | whole-degree boxes written as `S,N,W,E` are read back |
| Region.OriginNeedsDecimalPoint | API_HadUKGrid_data.py:151-167 | `0,0` is rejected as not given, while `0.0,0` is the point (0, 0) |
| Region.Corners | API_HadUKGrid_data.py:414-415 | the outline has five vertices and is closed; each vertex takes its longitude from W or E and its latitude from S or N, and consecutive vertices share a coordinate, so every edge runs along a side of the box |
| Region.CornersEncloseBox | API_HadUKGrid_data.py:414-420 | the outline's shoelace sum is twice the box's area, so its signed area equals the box's area and it runs counter-clockwise |
| Region.AcceptedBoxOutline | API_HadUKGrid_data.py:180-184 | every accepted box has an outline of positive area |
| Reduce.Square | API_HadUKGrid_data.py:405 | `x**2` is `x * x`: non-negative, and zero exactly when `x` is zero |
| Reduce.Distances | API_HadUKGrid_data.py:405 | every squared distance is non-negative, and zero exactly at a cell on the point |
| Reduce.FirstArgMin | API_HadUKGrid_data.py:406 | `np.argmin` returns an index of a smallest entry, and every earlier entry is strictly larger |
| Reduce.FirstMinUnique | API_HadUKGrid_data.py:406 | only one index satisfies that description |
| Reduce.NearestValue | API_HadUKGrid_data.py:405-408 | the reduction fails exactly on an empty field; otherwise it is the value at the first nearest cell |
| Reduce.NearestOnCell | API_HadUKGrid_data.py:405-408 | a point on a cell centre yields that cell's value, unless an earlier cell has the same centre |
| Reduce.NearestIsClosest | API_HadUKGrid_data.py:405-408 | the value returned belongs to a cell at least as close as every other cell |
| Reduce.InWindow | API_HadUKGrid_data.py:410 | a written timestamp's day lies from `date1` through `date2` |
| Reduce.InWindowByDay | API_HadUKGrid_data.py:410 | a timestamp is written exactly when its day is not before `date1` and it is at most `date2`'s midnight |
| Reduce.LaterOnLastDayExcluded | API_HadUKGrid_data.py:430 | a timestamp later in the day than `date2`'s midnight is not written |
| Reduce.MidnightsInWindow | API_HadUKGrid_data.py:410 | a day's midnight is written exactly when the day lies in [date1, date2] |
| Reduce.PointRows | API_HadUKGrid_data.py:388-411 | the point loop fails exactly when some field is empty. Otherwise it writes at most one row per field, only rows in the window, and a row for every field in the window; the rows are exactly the fields' nearest-cell rows kept by the window test, in field order, one per field |
| Seqs.Where | API_HadUKGrid_data.py:424 | `np.where(mask)[0]` lists positions of true entries only, every such position, in strictly increasing order |
| Reduce.BoxSelection | API_HadUKGrid_data.py:421-428 | indexing with `np.where(mask)[0]` selects the values at the positions the mask holds, in cell order |
| Seqs.GatherWhereIsCompress | API_HadUKGrid_data.py:424-426 | indexing with the positions from `np.where` equals boolean-mask selection |
| Reduce.BoxSelectionMembers | API_HadUKGrid_data.py:421-428 | a value is selected exactly when some cell inside the outline holds it |
| Reduce.BoxSelectionAll | API_HadUKGrid_data.py:421-428 | an outline holding every cell selects the whole field, in order |
| Reduce.BoxSelectionNone | API_HadUKGrid_data.py:421-428 | an outline holding no cell selects nothing |
| Reduce.BoxRows | API_HadUKGrid_data.py:412-431 | the box loop writes only rows in the window and a row with the field's selection for every field in the window; the rows are exactly the fields' box rows kept by the window test, in field order, one per field |
| Reduce.BoxRowsAllInWindow | API_HadUKGrid_data.py:430-431 | when every field lies in the window, every field gives a row |

## Left out

- Command-line parsing (lines 50-54, 64-131) and the option whitelists (lines 147-149, 189-208) are not modelled. A failed whitelist test either exits at once or sets `error=1`, and the run then ends at lines 209-210. `Temporal` stands for an already validated `-t`.
- The `strptime` parsing of `-i` and `-j` (lines 132-141, 302-303) is not modelled: the dates are valid `Date` inputs, and `strptime` gives their midnight datetimes (`Calendar.Midnight`), against which the window is tested.
- The `date1 > date2` check (line 143) is not a precondition. `Fragments` and `DateRangeList` also describe that case.
- The FTP session is left out: login, version, resolution, variable and update discovery, listing, download, and the skip-if-present test (lines 231-296, 343-359). The server listing is an input sequence.
- netCDF reading with `cf.read`, and the conversion from hours since 1800 to a local `datetime` (lines 388-401), are foreign calls and time-zone arithmetic. Each field is an input `Field`, timestamp included.
- `matplotlib.path.Path.contains_points` (lines 418-423) has boundary behaviour that belongs to the library. It is the `contains` parameter.
- The mean, median and standard deviation of the box selection (lines 426-428) are numpy floating-point computations. `BoxRow` carries the selection they are computed from.
- CSV writing, the clean-up and the quick-look figure (lines 364-381, 411, 431, 436-482) are formatting and I/O.
- `-m tif` is accepted only with a box (lines 189-191), but it opens no CSV file (line 364) and the box branch at line 413 runs only in `txt` mode. So every field is read and skipped, and `fout.close()` at line 433 then stops the run with a `NameError`. This mode writes nothing and is not modelled: `BoxRows` describes `txt` mode.
- `str.isnumeric` accepts many non-ASCII numeric characters. Only ASCII digits are modelled.
- Floating-point rounding is not modelled: coordinates, distances and conversions are exact reals.
- With `-r 0,0`, lines 151-153 only set `error=1`; `ROI` is never assigned, so `len(ROI)` at line 189 stops the run with a `NameError`. It is modelled as the `NotGiven` error.
- The misspelt `sys.exis(-1)` at line 338 raises `AttributeError` and so stops the run anyway. It is modelled as the `NoDataAvailable` error.
- Reduce.NearestValue, Reduce.PointRows, Reduce.BoxSelection, Reduce.BoxRows: require as many values as coordinate pairs (`WellShaped`). Numpy broadcasting of other shapes, and the `IndexError` they can cause, are not modelled. In particular the box path at line 426 indexes only the selected positions, so the script also tolerates more values than cells there; the model does not describe such fields.
- Reduce.PointRows: returns `None` when a field is empty. It does not describe the rows already written before `np.argmin` raises.

## Findings

| source | as written | input that shows it | evidently intended | confidence | as-written member | corrected member |
|---|---|---|---|---|---|---|
| API_HadUKGrid_data.py:159 | the numeric test removes the first `.` and the first `-` anywhere in the field, so a minus sign after a digit passes; `float()` then raises an uncaught `ValueError` | `-r 1-2,0` (also `5-` in any field) | a field with a misplaced minus sign is rejected by the numeric test with its error message | not executed | Region.ValidateRoiAsWritten (shown by Region.MisplacedMinusCrashes) | Region.ValidateRoi (Region.SameAcceptedRegions, Region.MisplacedMinusCrashes) |

=== FILE: calendar.dfy ===
/** The proleptic Gregorian calendar of Python's `datetime` and `calendar` modules, restricted to
    what the file-set resolver and the output filter use: dates, the leap rule, `monthrange`,
    `toordinal`, `+ timedelta(days=1)`, the `date_range_list` helper and datetime comparison. */
module Calendar {
  import opened Wrappers

  /** `datetime.MINYEAR` and `datetime.MAXYEAR`. */
  const MinYear: int := 1
  const MaxYear: int := 9999

  datatype Date = Date(year: int, month: int, day: int)

  /** The last date `datetime` can represent; adding a day to it raises `OverflowError`. */
  const MaxDate: Date := Date(MaxYear, 12, 31)

  predicate IsLeapYear(y: int) {
    y % 4 == 0 && (y % 100 != 0 || y % 400 == 0)
  }

  /** `calendar.monthrange(y, m)[1]`. */
  function DaysInMonth(y: int, m: int): (n: int)
    requires 1 <= m <= 12
    ensures 28 <= n <= 31
  {
    if m == 2 then (if IsLeapYear(y) then 29 else 28)
    else if m == 4 || m == 6 || m == 9 || m == 11 then 30
    else 31
  }

  function DaysInYear(y: int): int {
    if IsLeapYear(y) then 366 else 365
  }

  predicate ValidDate(d: Date) {
    && MinYear <= d.year <= MaxYear
    && 1 <= d.month <= 12
    && 1 <= d.day <= DaysInMonth(d.year, d.month)
  }

  /** Strict chronological order, as Python compares `date` values: year, then month, then day. */
  predicate Before(a: Date, b: Date) {
    || a.year < b.year
    || (a.year == b.year && a.month < b.month)
    || (a.year == b.year && a.month == b.month && a.day < b.day)
  }

  predicate NotAfter(a: Date, b: Date) {
    a == b || Before(a, b)
  }

  /** Days in the years before `y`, as Python's `_days_before_year` computes them. */
  function DaysBeforeYear(y: int): int
    requires y >= 1
  {
    var p := y - 1;
    365 * p + p / 4 - p / 100 + p / 400
  }

  /** Days in the months of year `y` before month `m`. */
  function DaysBeforeMonth(y: int, m: int): nat
    requires 1 <= m <= 12
  {
    if m == 1 then 0 else DaysBeforeMonth(y, m - 1) + DaysInMonth(y, m - 1)
  }

  /** `date.toordinal()`: 0001-01-01 is day 1. */
  function Ordinal(d: Date): int
    requires ValidDate(d)
  {
    DaysBeforeYear(d.year) + DaysBeforeMonth(d.year, d.month) + d.day
  }

  /** The closed formula adds exactly one year length per year: the Gregorian leap rule. */
  lemma YearStep(y: int)
    requires y >= 1
    ensures DaysBeforeYear(y + 1) == DaysBeforeYear(y) + DaysInYear(y)
  {
    var p := y - 1;
    assert y / 4 - p / 4 == (if y % 4 == 0 then 1 else 0);
    assert y / 100 - p / 100 == (if y % 100 == 0 then 1 else 0);
    assert y / 400 - p / 400 == (if y % 400 == 0 then 1 else 0);
    assert y % 400 == 0 ==> y % 100 == 0;
    assert y % 100 == 0 ==> y % 4 == 0;
  }

  lemma {:induction false} DaysBeforeYearMonotone(a: int, b: int)
    requires 1 <= a <= b
    ensures DaysBeforeYear(a) + 365 * (b - a) <= DaysBeforeYear(b)
    decreases b - a
  {
    if a < b {
      DaysBeforeYearMonotone(a, b - 1);
      YearStep(b - 1);
    }
  }

  /** The twelve months fill the year exactly. */
  lemma MonthsFillYear(y: int)
    ensures DaysBeforeMonth(y, 12) + DaysInMonth(y, 12) == DaysInYear(y)
  {
    var f := DaysInMonth(y, 2);
    assert DaysBeforeMonth(y, 2) == 31;
    assert DaysBeforeMonth(y, 3) == 31 + f;
    assert DaysBeforeMonth(y, 4) == 62 + f;
    assert DaysBeforeMonth(y, 5) == 92 + f;
    assert DaysBeforeMonth(y, 6) == 123 + f;
    assert DaysBeforeMonth(y, 7) == 153 + f;
    assert DaysBeforeMonth(y, 8) == 184 + f;
    assert DaysBeforeMonth(y, 9) == 215 + f;
    assert DaysBeforeMonth(y, 10) == 245 + f;
    assert DaysBeforeMonth(y, 11) == 276 + f;
    assert DaysBeforeMonth(y, 12) == 306 + f;
  }

  lemma {:induction false} DaysBeforeMonthMonotone(y: int, a: int, b: int)
    requires 1 <= a < b <= 12
    ensures DaysBeforeMonth(y, a) + DaysInMonth(y, a) <= DaysBeforeMonth(y, b)
    decreases b - a
  {
    if a + 1 < b {
      DaysBeforeMonthMonotone(y, a, b - 1);
    }
  }

  /** One day later, `d + timedelta(days=1)`; the maximal date has no successor. */
  function Next(d: Date): (n: Date)
    requires ValidDate(d) && d != MaxDate
    ensures ValidDate(n) && Before(d, n)
    ensures Ordinal(n) == Ordinal(d) + 1
  {
    if d.day < DaysInMonth(d.year, d.month) then Date(d.year, d.month, d.day + 1)
    else if d.month < 12 then Date(d.year, d.month + 1, 1)
    else
      YearStep(d.year);
      MonthsFillYear(d.year);
      Date(d.year + 1, 1, 1)
  }

  /** No valid date lies after the maximal one. */
  lemma MaxDateIsLast(d: Date)
    requires ValidDate(d)
    ensures NotAfter(d, MaxDate)
  {
  }

  lemma {:induction false} OrdinalRespectsOrder(a: Date, b: Date)
    requires ValidDate(a) && ValidDate(b) && Before(a, b)
    ensures Ordinal(a) < Ordinal(b)
  {
    if a.year < b.year {
      EndOfYear(a);
      YearStep(a.year);
      DaysBeforeYearMonotone(a.year + 1, b.year);
      assert Ordinal(a) <= DaysBeforeYear(a.year + 1);
      assert DaysBeforeYear(b.year) < Ordinal(b);
    } else if a.month < b.month {
      DaysBeforeMonthMonotone(a.year, a.month, b.month);
    }
  }

  /** A date's day number within its year is at most the year's length. */
  lemma EndOfYear(d: Date)
    requires ValidDate(d)
    ensures DaysBeforeMonth(d.year, d.month) + d.day <= DaysInYear(d.year)
  {
    if d.month < 12 {
      DaysBeforeMonthMonotone(d.year, d.month, 12);
    }
    MonthsFillYear(d.year);
  }

  /** The ordinal numbering is an order isomorphism between valid dates and day numbers. */
  lemma OrdinalOrder(a: Date, b: Date)
    requires ValidDate(a) && ValidDate(b)
    ensures Before(a, b) <==> Ordinal(a) < Ordinal(b)
    ensures a == b <==> Ordinal(a) == Ordinal(b)
  {
    if Before(a, b) {
      OrdinalRespectsOrder(a, b);
    } else if Before(b, a) {
      OrdinalRespectsOrder(b, a);
    }
  }

  /** `Next` is the immediate successor: nothing lies strictly between a date and the next one. */
  lemma NextIsImmediate(a: Date, b: Date)
    requires ValidDate(a) && ValidDate(b) && Before(a, b)
    ensures a != MaxDate && NotAfter(Next(a), b)
  {
    MaxDateIsLast(b);
    OrdinalOrder(a, b);
    OrdinalOrder(Next(a), b);
  }

  /** The script's `date_range_list(start, end)`: the loop appends the current date, then adds one
      day, while the current date is not after `end`. Stepping past `MaxDate` raises
      `OverflowError`, which is `None` here. */
  function DateRangeList(s: Date, e: Date): (r: Option<seq<Date>>)
    requires ValidDate(s) && ValidDate(e)
    ensures r.None? <==> NotAfter(s, e) && e == MaxDate
    ensures r.Some? && !NotAfter(s, e) ==> r.value == []
    ensures r.Some? && NotAfter(s, e) ==>
      && |r.value| == Ordinal(e) - Ordinal(s) + 1
      && |r.value| >= 1
      && r.value[0] == s
      && r.value[|r.value| - 1] == e
    ensures r.Some? ==> forall i :: 0 <= i < |r.value| ==>
      ValidDate(r.value[i]) && NotAfter(s, r.value[i]) && NotAfter(r.value[i], e)
    ensures r.Some? ==> forall i :: 0 <= i < |r.value| - 1 ==>
      r.value[i] != MaxDate && r.value[i + 1] == Next(r.value[i])
    decreases Ordinal(e) - Ordinal(s) + 1
  {
    OrdinalOrder(s, e);
    if !NotAfter(s, e) then Some([])
    else if s == MaxDate then None
    else
      var n := Next(s);
      OrdinalOrder(n, e);
      if s == e then
        assert !NotAfter(n, e);
        Some([s])
      else
        NextIsImmediate(s, e);
        match DateRangeList(n, e)
        case None => None
        case Some(rest) =>
          PrependDay(s, e, rest);
          Some([s] + rest)
  }

  /** Putting `s` in front of the range from `Next(s)` keeps every element between `s` and `e`
      and each element followed by its successor. */
  lemma PrependDay(s: Date, e: Date, rest: seq<Date>)
    requires ValidDate(s) && s != MaxDate && |rest| >= 1 && rest[0] == Next(s)
    requires forall i :: 0 <= i < |rest| ==>
      ValidDate(rest[i]) && NotAfter(Next(s), rest[i]) && NotAfter(rest[i], e)
    requires forall i :: 0 <= i < |rest| - 1 ==> rest[i] != MaxDate && rest[i + 1] == Next(rest[i])
    ensures forall i :: 0 <= i < |[s] + rest| ==>
      ValidDate(([s] + rest)[i]) && NotAfter(s, ([s] + rest)[i]) && NotAfter(([s] + rest)[i], e)
    ensures forall i :: 0 <= i < |[s] + rest| - 1 ==>
      ([s] + rest)[i] != MaxDate && ([s] + rest)[i + 1] == Next(([s] + rest)[i])
  {
  }

  /** Every date from `s` to `e` appears in `date_range_list(s, e)`. */
  lemma {:induction false} DateRangeListCovers(s: Date, e: Date, d: Date)
    requires ValidDate(s) && ValidDate(e) && ValidDate(d)
    requires NotAfter(s, d) && NotAfter(d, e)
    requires DateRangeList(s, e).Some?
    ensures d in DateRangeList(s, e).value
    decreases Ordinal(e) - Ordinal(s)
  {
    OrdinalOrder(s, e);
    OrdinalOrder(s, d);
    OrdinalOrder(d, e);
    if d != s {
      NextIsImmediate(s, d);
      var n := Next(s);
      var rest := DateRangeList(n, e);
      assert DateRangeList(s, e) == Some([s] + rest.value);
      DateRangeListCovers(n, e, d);
    }
  }

  /** A `datetime`: a date and the microseconds elapsed since its midnight. */
  datatype DateTime = DateTime(date: Date, micros: int)

  const MicrosPerDay: int := 86_400_000_000

  predicate ValidDateTime(t: DateTime) {
    ValidDate(t.date) && 0 <= t.micros < MicrosPerDay
  }

  /** `datetime.strptime(..., '%Y-%m-%d')` yields the date's midnight. */
  function Midnight(d: Date): DateTime {
    DateTime(d, 0)
  }

  /** Python's `a <= b` on naive datetimes. */
  predicate NotLater(a: DateTime, b: DateTime) {
    Before(a.date, b.date) || (a.date == b.date && a.micros <= b.micros)
  }
}

=== FILE: dedup.dfy ===
/** `np.unique` on a list of strings: the distinct values, sorted in Python's string order. */
module Dedup {
  import opened Text

  predicate StrictlyIncreasing(xs: seq<string>) {
    forall i, j :: 0 <= i < j < |xs| ==> Less(xs[i], xs[j])
  }

  /** A strictly increasing list repeats nothing. */
  lemma StrictlyIncreasingIsDistinct(xs: seq<string>, i: int, j: int)
    requires StrictlyIncreasing(xs)
    requires 0 <= i < |xs| && 0 <= j < |xs| && i != j
    ensures xs[i] != xs[j]
  {
    if i < j {
      LessIrreflexive(xs[i]);
    } else {
      LessIrreflexive(xs[j]);
    }
  }

  /** Places `x` into a strictly increasing list, unless it is already there. */
  function Insert(xs: seq<string>, x: string): (r: seq<string>)
    requires StrictlyIncreasing(xs)
    ensures StrictlyIncreasing(r)
    ensures forall y :: y in r <==> y in xs || y == x
  {
    if xs == [] then [x]
    else if x == xs[0] then xs
    else if Less(x, xs[0]) then
      assert forall k :: 1 <= k < |xs| ==> Less(x, xs[k]) by {
        forall k | 1 <= k < |xs| ensures Less(x, xs[k]) {
          LessTransitive(x, xs[0], xs[k]);
        }
      }
      [x] + xs
    else
      LessTotal(x, xs[0]);
      var rest := Insert(xs[1..], x);
      assert forall y :: y in xs <==> y == xs[0] || y in xs[1..];
      assert forall k :: 0 <= k < |rest| ==> Less(xs[0], rest[k]) by {
        forall k | 0 <= k < |rest| ensures Less(xs[0], rest[k]) {
          assert rest[k] in rest;
        }
      }
      [xs[0]] + rest
  }

  /** `np.unique(xs)`: sorted, duplicate-free, and holding exactly the values of `xs`. */
  function SortedDistinct(xs: seq<string>): (r: seq<string>)
    ensures StrictlyIncreasing(r)
    ensures forall y :: y in r <==> y in xs
  {
    if xs == [] then []
    else
      var n := |xs| - 1;
      assert forall y :: y in xs <==> y in xs[..n] || y == xs[n] by {
        assert xs == xs[..n] + [xs[n]];
      }
      Insert(SortedDistinct(xs[..n]), xs[n])
  }

  /** The head of a strictly increasing list is below every other element of it. */
  lemma HeadIsLeast(xs: seq<string>, y: string)
    requires StrictlyIncreasing(xs) && y in xs
    ensures y == xs[0] || Less(xs[0], y)
  {
    var k :| 0 <= k < |xs| && xs[k] == y;
    if k > 0 {
      assert Less(xs[0], xs[k]);
    }
  }

  lemma LessNotBoth(x: string, y: string)
    ensures !(Less(x, y) && Less(y, x))
  {
    if Less(x, y) {
      LessAsymmetric(x, y);
    }
  }

  /** Two strictly increasing lists with the same elements are the same list: the sorted,
      duplicate-free arrangement of a set of strings is unique. */
  lemma {:induction false} StrictlyIncreasingUnique(a: seq<string>, b: seq<string>)
    requires StrictlyIncreasing(a) && StrictlyIncreasing(b)
    requires forall y :: y in a <==> y in b
    ensures a == b
  {
    assert a != [] ==> a[0] in b;
    assert b != [] ==> b[0] in a;
    if a != [] {
      HeadIsLeast(a, b[0]);
      HeadIsLeast(b, a[0]);
      LessNotBoth(a[0], b[0]);
      assert a[0] == b[0];
      forall y
        ensures y in a[1..] <==> y in b[1..]
      {
        if y in a[1..] {
          var k :| 1 <= k < |a| && a[k] == y;
          StrictlyIncreasingIsDistinct(a, 0, k);
          assert y in b;
          var l :| 0 <= l < |b| && b[l] == y;
          assert l != 0;
        }
        if y in b[1..] {
          var k :| 1 <= k < |b| && b[k] == y;
          StrictlyIncreasingIsDistinct(b, 0, k);
          assert y in a;
          var l :| 0 <= l < |a| && a[l] == y;
          assert l != 0;
        }
      }
      StrictlyIncreasingUnique(a[1..], b[1..]);
      assert a == [a[0]] + a[1..] && b == [b[0]] + b[1..];
    }
  }
}

=== FILE: reconcile.dfy ===
/** Availability reconciliation: each date fragment is rendered into an archive file name, and the
    names the server listing holds are kept, in fragment order. A run with nothing to download
    stops before the download stage. */
module Reconcile {
  import opened Wrappers
  import opened Text
  import opened Calendar
  import opened Seqs
  import opened Sequencer

  /** Why the run stops before downloading: stepping past the last representable date while
      building the fragments, or no requested file in the listing. */
  datatype RunError = DateOverflow | NoDataAvailable

  /** The template `"%s_hadukgrid_uk_%s_%s_%s.nc" % (variable, spt_res, temp_res, fragment)`. */
  function ArchiveFileName(variable: string, resolution: string, t: Temporal, fragment: string): (name: string)
    ensures |name| > |variable| + |fragment| + 3
    ensures name[..|variable|] == variable
    ensures name[|name| - |fragment| - 3..] == fragment + ".nc"
  {
    var prefix := variable + "_hadukgrid_uk_" + resolution + "_" + TemporalName(t) + "_";
    assert prefix[..|variable|] == variable;
    assert (prefix + fragment + ".nc")[|prefix|..] == fragment + ".nc";
    variable + "_hadukgrid_uk_" + resolution + "_" + TemporalName(t) + "_" + fragment + ".nc"
  }

  /** With the other fields fixed, different fragments name different files. */
  lemma FileNameInjective(variable: string, resolution: string, t: Temporal, f1: string, f2: string)
    ensures ArchiveFileName(variable, resolution, t, f1) == ArchiveFileName(variable, resolution, t, f2)
        <==> f1 == f2
  {
    var prefix := variable + "_hadukgrid_uk_" + resolution + "_" + TemporalName(t) + "_";
    var n1, n2 := ArchiveFileName(variable, resolution, t, f1), ArchiveFileName(variable, resolution, t, f2);
    assert n1 == prefix + (f1 + ".nc") && n2 == prefix + (f2 + ".nc");
    if n1 == n2 {
      assert |f1| == |f2|;
      assert f1 + ".nc" == n1[|prefix|..] == f2 + ".nc";
      assert f1 == (f1 + ".nc")[..|f1|];
      assert f2 == (f2 + ".nc")[..|f2|];
    }
  }

  /** The requested names, one per fragment, in fragment order. */
  function RequestedNames(variable: string, resolution: string, t: Temporal, fragments: seq<string>): (names: seq<string>)
    ensures |names| == |fragments|
  {
    seq(|fragments|, i requires 0 <= i < |fragments| => ArchiveFileName(variable, resolution, t, fragments[i]))
  }

  /** A name is requested exactly when some fragment renders to it. */
  lemma RequestedNameOf(variable: string, resolution: string, t: Temporal, fragments: seq<string>, n: string)
    ensures n in RequestedNames(variable, resolution, t, fragments)
        <==> exists f :: f in fragments && n == ArchiveFileName(variable, resolution, t, f)
  {
    var names := RequestedNames(variable, resolution, t, fragments);
    if n in names {
      var i :| 0 <= i < |names| && names[i] == n;
      assert fragments[i] in fragments;
    }
    if exists f :: f in fragments && n == ArchiveFileName(variable, resolution, t, f) {
      var f :| f in fragments && n == ArchiveFileName(variable, resolution, t, f);
      var i :| 0 <= i < |fragments| && fragments[i] == f;
      assert names[i] == n;
    }
  }

  /** The loop building `list_of_files` and the abort when it stays empty. */
  function Reconcile(names: seq<string>, listing: seq<string>): (r: Result<seq<string>, RunError>)
    ensures r.Err? <==> forall n :: n in names ==> n !in listing
    ensures r.Err? ==> r.error == NoDataAvailable
    ensures r.Ok? ==> r.value != [] && IsSubsequence(r.value, names)
    ensures r.Ok? ==> forall n :: n in r.value <==> n in names && n in listing
  {
    var found := Filter(names, n => n in listing);
    assert found != [] ==> found[0] in found;
    if found == [] then Err(NoDataAvailable) else Ok(found)
  }

  /** A requested name is kept exactly as often as it is requested when it is listed, and dropped
      otherwise, whatever the listing holds besides. */
  lemma ReconcileMultiplicity(names: seq<string>, listing: seq<string>, n: string)
    requires Reconcile(names, listing).Ok?
    ensures multiset(Reconcile(names, listing).value)[n]
         == if n in listing then multiset(names)[n] else 0
  {
    FilterKeepsMultiplicity(names, m => m in listing, n);
  }

  /** When the server lists every requested file, all of them are downloaded, in order. */
  lemma ReconcileAllListed(names: seq<string>, listing: seq<string>)
    requires names != []
    requires forall k :: 0 <= k < |names| ==> names[k] in listing
    ensures Reconcile(names, listing) == Ok(names)
  {
    FilterAll(names, n => n in listing);
  }

  /** `list_of_files` for a validated request: the fragments of the date range rendered into file
      names and reconciled with the server listing. */
  function FilesToDownload(variable: string, resolution: string, t: Temporal, d1: Date, d2: Date,
                           listing: seq<string>): (r: Result<seq<string>, RunError>)
    requires ValidDate(d1) && ValidDate(d2)
    ensures r == Err(DateOverflow) <==> Fragments(t, d1, d2).None?
    ensures r.Ok? ==> forall n :: n in r.value <==>
      (n in listing && exists f :: f in Fragments(t, d1, d2).value && n == ArchiveFileName(variable, resolution, t, f))
  {
    match Fragments(t, d1, d2)
    case None => Err(DateOverflow)
    case Some(fragments) =>
      var names := RequestedNames(variable, resolution, t, fragments);
      assert forall n :: n in names <==> exists f :: f in fragments && n == ArchiveFileName(variable, resolution, t, f) by {
        forall n ensures n in names <==> exists f :: f in fragments && n == ArchiveFileName(variable, resolution, t, f) {
          RequestedNameOf(variable, resolution, t, fragments, n);
        }
      }
      Reconcile(names, listing)
  }

  /** The run stops for want of data exactly when the fragments exist and none of their file
      names is listed; otherwise the downloads are requested names in fragment order. */
  lemma FilesToDownloadOutcome(variable: string, resolution: string, t: Temporal, d1: Date, d2: Date,
                               listing: seq<string>)
    requires ValidDate(d1) && ValidDate(d2)
    ensures var r := FilesToDownload(variable, resolution, t, d1, d2, listing);
      && (r == Err(NoDataAvailable) <==>
            && Fragments(t, d1, d2).Some?
            && forall f :: f in Fragments(t, d1, d2).value ==> ArchiveFileName(variable, resolution, t, f) !in listing)
      && (r.Ok? ==> IsSubsequence(r.value, RequestedNames(variable, resolution, t, Fragments(t, d1, d2).value)))
  {
    match Fragments(t, d1, d2)
    case None =>
    case Some(fragments) =>
      var names := RequestedNames(variable, resolution, t, fragments);
      assert FilesToDownload(variable, resolution, t, d1, d2, listing) == Reconcile(names, listing);
      forall f | f in fragments
        ensures ArchiveFileName(variable, resolution, t, f) in names
      {
        RequestedNameOf(variable, resolution, t, fragments, ArchiveFileName(variable, resolution, t, f));
      }
      forall n | n in names
        ensures exists f :: f in fragments && n == ArchiveFileName(variable, resolution, t, f)
      {
        RequestedNameOf(variable, resolution, t, fragments, n);
      }
  }

  /** An empty server listing always stops the run. */
  lemma EmptyListingStops(variable: string, resolution: string, t: Temporal, d1: Date, d2: Date)
    requires ValidDate(d1) && ValidDate(d2)
    ensures FilesToDownload(variable, resolution, t, d1, d2, []).Err?
  {
  }

  /** A concrete monthly request for 2020 against a listing that holds the matching file. */
  lemma Rainfall2020()
    ensures FilesToDownload("rainfall", "1km", Monthly, Date(2020, 1, 1), Date(2020, 12, 31),
                            ["rainfall_hadukgrid_uk_1km_mon_202001-202012.nc", "readme.txt"])
         == Ok(["rainfall_hadukgrid_uk_1km_mon_202001-202012.nc"])
  {
    MonthlyWithinOneYear();
    var name := "rainfall_hadukgrid_uk_1km_mon_202001-202012.nc";
    var listing := [name, "readme.txt"];
    RainfallName();
    var names := RequestedNames("rainfall", "1km", Monthly, ["202001-202012"]);
    assert names == [name];
    ReconcileAllListed([name], listing);
    assert FilesToDownload("rainfall", "1km", Monthly, Date(2020, 1, 1), Date(2020, 12, 31), listing)
        == Reconcile(names, listing);
  }

  lemma RainfallName()
    ensures ArchiveFileName("rainfall", "1km", Monthly, "202001-202012")
         == "rainfall_hadukgrid_uk_1km_mon_202001-202012.nc"
  {
    var name := ArchiveFileName("rainfall", "1km", Monthly, "202001-202012");
    var prefix := "rainfall" + "_hadukgrid_uk_" + "1km" + "_" + "mon" + "_";
    assert prefix == "rainfall_hadukgrid_uk_1km_mon_";
    assert name == prefix + "202001-202012" + ".nc";
  }
}

=== FILE: reduce.dfy ===
/** The reading loop: every field of every downloaded file is reduced to the value of the cell
    nearest a point, or to the values inside a box, and a row is written only when the field's
    timestamp lies between the two requested dates. */
module Reduce {
  import opened Wrappers
  import opened Seqs
  import opened Calendar
  import opened Region

  /** One field read from a file: the flattened cell longitudes, latitudes and data values, and
      the field's timestamp. */
  datatype Field = Field(lon: seq<real>, lat: seq<real>, values: seq<real>, time: DateTime)

  /** One coordinate pair and one value per cell. */
  predicate WellShaped(f: Field) {
    |f.lat| == |f.lon| && |f.values| == |f.lon|
  }

  /** `x**2`, written through the magnitude of `x`. */
  function Square(x: real): (y: real)
    ensures y >= 0.0 && (y == 0.0 <==> x == 0.0)
    ensures y == x * x
  {
    if x > 0.0 then PositiveProduct(x, x)
    else if x < 0.0 then PositiveProduct(-x, -x)
    else 0.0
  }

  function PositiveProduct(a: real, b: real): (c: real)
    requires a > 0.0 && b > 0.0
    ensures c > 0.0
  {
    a * b
  }

  /** `(lon - ROI[1])**2 + (lat - ROI[0])**2` for every cell. */
  function Distances(f: Field, p: Roi): (ds: seq<real>)
    requires p.Point? && |f.lat| == |f.lon|
    ensures |ds| == |f.lon|
    ensures forall i :: 0 <= i < |ds| ==>
      ds[i] >= 0.0 && (ds[i] == 0.0 <==> f.lon[i] == p.lon && f.lat[i] == p.lat)
  {
    seq(|f.lon|, i requires 0 <= i < |f.lon| => Square(f.lon[i] - p.lon) + Square(f.lat[i] - p.lat))
  }

  /** `i` is where `np.argmin(ds)` points: a smallest entry, with every earlier entry larger. */
  predicate IsFirstMin(ds: seq<real>, i: int) {
    && 0 <= i < |ds|
    && (forall j :: 0 <= j < |ds| ==> ds[i] <= ds[j])
    && (forall j :: 0 <= j < i ==> ds[i] < ds[j])
  }

  /** A sequence has at most one first minimum. */
  lemma FirstMinUnique(ds: seq<real>, i: int, j: int)
    requires IsFirstMin(ds, i) && IsFirstMin(ds, j)
    ensures i == j
  {
    assert ds[i] == ds[j];
  }

  /** The scan behind `np.argmin`: `best` is the first minimum of the first `k` entries, and a later
      entry replaces it only when strictly smaller. */
  function ArgMinFrom(ds: seq<real>, k: nat, best: nat): (i: nat)
    requires best < k <= |ds|
    requires IsFirstMin(ds[..k], best)
    ensures IsFirstMin(ds, i)
    decreases |ds| - k
  {
    if k == |ds| then
      assert ds[..k] == ds;
      best
    else
      var prefix := ds[..k + 1];
      assert forall j :: 0 <= j < k ==> prefix[j] == ds[..k][j];
      if ds[k] < ds[best] then ArgMinFrom(ds, k + 1, k)
      else ArgMinFrom(ds, k + 1, best)
  }

  /** `np.argmin(ds)` for a non-empty `ds`. */
  function FirstArgMin(ds: seq<real>): (i: nat)
    requires |ds| > 0
    ensures IsFirstMin(ds, i)
  {
    ArgMinFrom(ds, 1, 0)
  }

  /** `data.flatten()[np.argmin(disttmp)]`; an empty field makes `np.argmin` raise, which is `None`. */
  function NearestValue(f: Field, p: Roi): (r: Option<real>)
    requires p.Point? && WellShaped(f)
    ensures r.None? <==> |f.values| == 0
    ensures r.Some? ==> exists i :: IsFirstMin(Distances(f, p), i) && r.value == f.values[i]
  {
    if |f.values| == 0 then None
    else
      var i := FirstArgMin(Distances(f, p));
      Some(f.values[i])
  }

  /** A point exactly on a cell centre yields that cell's value, unless an earlier cell has the
      same centre. */
  lemma NearestOnCell(f: Field, p: Roi, k: int)
    requires p.Point? && WellShaped(f) && 0 <= k < |f.values|
    requires f.lon[k] == p.lon && f.lat[k] == p.lat
    requires forall j :: 0 <= j < k ==> f.lon[j] != p.lon || f.lat[j] != p.lat
    ensures NearestValue(f, p) == Some(f.values[k])
  {
    var ds := Distances(f, p);
    assert IsFirstMin(ds, k);
    FirstMinUnique(ds, k, FirstArgMin(ds));
  }

  /** The nearest value is the value of some cell at least as close as every other cell. */
  lemma NearestIsClosest(f: Field, p: Roi)
    requires p.Point? && WellShaped(f) && |f.values| > 0
    ensures exists i :: (
      && 0 <= i < |f.values| && NearestValue(f, p) == Some(f.values[i])
      && forall j :: 0 <= j < |f.values| ==>
        Square(f.lon[i] - p.lon) + Square(f.lat[i] - p.lat) <= Square(f.lon[j] - p.lon) + Square(f.lat[j] - p.lat))
  {
    var ds := Distances(f, p);
    var i := FirstArgMin(ds);
    assert forall j :: 0 <= j < |ds| ==> ds[i] <= ds[j];
  }

  /** `date1 <= t and date2 >= t`, with both dates at midnight as `strptime` makes them. */
  predicate InWindow(t: DateTime, d1: Date, d2: Date)
    ensures InWindow(t, d1, d2) ==> NotAfter(d1, t.date) && NotAfter(t.date, d2)
  {
    NotLater(Midnight(d1), t) && NotLater(t, Midnight(d2))
  }

  /** By calendar days: the window runs from the first date through the start of the last one. */
  lemma InWindowByDay(t: DateTime, d1: Date, d2: Date)
    requires ValidDateTime(t)
    ensures InWindow(t, d1, d2) <==>
      NotAfter(d1, t.date) && (Before(t.date, d2) || (t.date == d2 && t.micros == 0))
  {
  }

  /** A timestamp later in the day than the last date's midnight is left out. */
  lemma LaterOnLastDayExcluded(t: DateTime, d1: Date, d2: Date)
    requires ValidDateTime(t) && t.date == d2 && t.micros > 0
    ensures !InWindow(t, d1, d2)
  {
  }

  /** The midnight of every listed day is written, both ends included. */
  lemma MidnightsInWindow(d1: Date, d2: Date, d: Date)
    requires ValidDate(d1) && ValidDate(d2) && ValidDate(d)
    ensures InWindow(Midnight(d), d1, d2) <==> NotAfter(d1, d) && NotAfter(d, d2)
  {
  }

  /** One row of the point output: the field's time and the nearest cell's value. */
  datatype PointRow = PointRow(time: DateTime, value: real)

  /** The row every field would give, one per field in field order, before the window is applied. */
  function FieldPointRows(fields: seq<Field>, p: Roi): (rows: seq<PointRow>)
    requires p.Point? && forall k :: 0 <= k < |fields| ==> WellShaped(fields[k]) && |fields[k].values| > 0
    ensures |rows| == |fields|
  {
    seq(|fields|, k requires 0 <= k < |fields| => PointRow(fields[k].time, NearestValue(fields[k], p).value))
  }

  lemma FieldPointRowsTail(fields: seq<Field>, p: Roi)
    requires p.Point? && fields != []
    requires forall k :: 0 <= k < |fields| ==> WellShaped(fields[k]) && |fields[k].values| > 0
    ensures FieldPointRows(fields, p)[0] == PointRow(fields[0].time, NearestValue(fields[0], p).value)
    ensures FieldPointRows(fields, p)[1..] == FieldPointRows(fields[1..], p)
  {
  }

  /** Whether a point row's time lies in the window. */
  function PointWritten(d1: Date, d2: Date): PointRow -> bool {
    (row: PointRow) => InWindow(row.time, d1, d2)
  }

  /** The reading loop for a point: every field is reduced, whether or not it is then written, so an
      empty field anywhere stops the run; otherwise the rows written are exactly the rows of the
      fields in the window, in field order, one each. */
  function PointRows(fields: seq<Field>, p: Roi, d1: Date, d2: Date): (r: Option<seq<PointRow>>)
    requires p.Point? && forall k :: 0 <= k < |fields| ==> WellShaped(fields[k])
    ensures r.None? <==> exists k :: 0 <= k < |fields| && |fields[k].values| == 0
    ensures r.Some? ==> |r.value| <= |fields|
    ensures r.Some? ==> forall row :: row in r.value ==> InWindow(row.time, d1, d2)
    ensures r.Some? ==> forall k :: 0 <= k < |fields| && InWindow(fields[k].time, d1, d2) ==>
      PointRow(fields[k].time, NearestValue(fields[k], p).value) in r.value
    ensures r.Some? ==> r.value == Filter(FieldPointRows(fields, p), PointWritten(d1, d2))
  {
    if fields == [] then Some([])
    else
      match NearestValue(fields[0], p)
      case None => None
      case Some(v) =>
        match PointRows(fields[1..], p, d1, d2)
        case None =>
          assert forall k :: 1 <= k < |fields| ==> fields[k] == fields[1..][k - 1];
          None
        case Some(rest) =>
          assert forall k :: 1 <= k < |fields| ==> fields[k] == fields[1..][k - 1];
          FieldPointRowsTail(fields, p);
          var r := (if InWindow(fields[0].time, d1, d2) then [PointRow(fields[0].time, v)] else []) + rest;
          assert r == Filter(FieldPointRows(fields, p), PointWritten(d1, d2));
          WindowedPointRows(fields, p, d1, d2);
          Some(r)
  }

  /** The window filter over a point's rows keeps one row per field in the window, and nothing
      else. */
  lemma WindowedPointRows(fields: seq<Field>, p: Roi, d1: Date, d2: Date)
    requires p.Point? && forall k :: 0 <= k < |fields| ==> WellShaped(fields[k]) && |fields[k].values| > 0
    ensures var r := Filter(FieldPointRows(fields, p), PointWritten(d1, d2));
      && |r| <= |fields|
      && (forall row :: row in r ==> InWindow(row.time, d1, d2))
      && (forall k :: 0 <= k < |fields| && InWindow(fields[k].time, d1, d2) ==>
            PointRow(fields[k].time, NearestValue(fields[k], p).value) in r)
  {
    var all := FieldPointRows(fields, p);
    forall k | 0 <= k < |fields| && InWindow(fields[k].time, d1, d2)
      ensures PointRow(fields[k].time, NearestValue(fields[k], p).value) in Filter(all, PointWritten(d1, d2))
    {
      assert all[k] == PointRow(fields[k].time, NearestValue(fields[k], p).value);
    }
  }

  /** `path.Path(corners).contains_points(points)`: which (longitude, latitude) points a closed
      outline holds. Its treatment of the boundary belongs to the plotting library, so it is a
      parameter. */
  type Contains = (seq<(real, real)>, (real, real)) -> bool

  function Mask(f: Field, b: Roi, contains: Contains): (mask: seq<bool>)
    requires b.Box? && WellShaped(f)
    ensures |mask| == |f.values|
  {
    seq(|f.lon|, i requires 0 <= i < |f.lon| => contains(Corners(b), (f.lon[i], f.lat[i])))
  }

  /** `data.flatten()[np.where(mask)[0]]`: the values of the cells inside the box, in cell order. */
  function BoxSelection(f: Field, b: Roi, contains: Contains): (sel: seq<real>)
    requires b.Box? && WellShaped(f)
    ensures sel == Compress(f.values, Mask(f, b, contains))
  {
    var mask := Mask(f, b, contains);
    GatherWhereIsCompress(f.values, mask);
    Gather(f.values, Where(mask))
  }

  /** The selection holds a value exactly when some cell inside the box has it. */
  lemma BoxSelectionMembers(f: Field, b: Roi, contains: Contains, v: real)
    requires b.Box? && WellShaped(f)
    ensures v in BoxSelection(f, b, contains) <==>
      exists i :: 0 <= i < |f.values| && contains(Corners(b), (f.lon[i], f.lat[i])) && f.values[i] == v
  {
    var mask := Mask(f, b, contains);
    CompressMembers(f.values, mask, v);
  }

  /** A box holding every cell selects the whole field, in order. */
  lemma BoxSelectionAll(f: Field, b: Roi, contains: Contains)
    requires b.Box? && WellShaped(f)
    requires forall i :: 0 <= i < |f.lon| ==> contains(Corners(b), (f.lon[i], f.lat[i]))
    ensures BoxSelection(f, b, contains) == f.values
  {
    CompressAll(f.values, Mask(f, b, contains));
  }

  /** A box holding no cell selects nothing. */
  lemma BoxSelectionNone(f: Field, b: Roi, contains: Contains)
    requires b.Box? && WellShaped(f)
    requires forall i :: 0 <= i < |f.lon| ==> !contains(Corners(b), (f.lon[i], f.lat[i]))
    ensures BoxSelection(f, b, contains) == []
  {
    CompressNone(f.values, Mask(f, b, contains));
  }

  /** One row of the box output: the field's time and the selected values its statistics are
      computed from. */
  datatype BoxRow = BoxRow(time: DateTime, selected: seq<real>)

  /** The row every field would give, one per field in field order, before the window is applied. */
  function FieldBoxRows(fields: seq<Field>, b: Roi, contains: Contains): (rows: seq<BoxRow>)
    requires b.Box? && forall k :: 0 <= k < |fields| ==> WellShaped(fields[k])
    ensures |rows| == |fields|
  {
    seq(|fields|, k requires 0 <= k < |fields| => BoxRow(fields[k].time, BoxSelection(fields[k], b, contains)))
  }

  /** Whether a box row's time lies in the window. */
  function BoxWritten(d1: Date, d2: Date): BoxRow -> bool {
    (row: BoxRow) => InWindow(row.time, d1, d2)
  }

  /** The reading loop for a box in text mode: one row per field whose time lies in the window. */
  function BoxRows(fields: seq<Field>, b: Roi, contains: Contains, d1: Date, d2: Date): (r: seq<BoxRow>)
    requires b.Box? && forall k :: 0 <= k < |fields| ==> WellShaped(fields[k])
    ensures |r| <= |fields|
    ensures forall row :: row in r ==> InWindow(row.time, d1, d2)
    ensures forall k :: 0 <= k < |fields| && InWindow(fields[k].time, d1, d2) ==>
      BoxRow(fields[k].time, BoxSelection(fields[k], b, contains)) in r
    ensures r == Filter(FieldBoxRows(fields, b, contains), BoxWritten(d1, d2))
  {
    if fields == [] then []
    else
      var rest := BoxRows(fields[1..], b, contains, d1, d2);
      assert forall k :: 1 <= k < |fields| ==> fields[k] == fields[1..][k - 1];
      var f := fields[0];
      FieldBoxRowsTail(fields, b, contains);
      var r := (if InWindow(f.time, d1, d2) then [BoxRow(f.time, BoxSelection(f, b, contains))] else []) + rest;
      assert r == Filter(FieldBoxRows(fields, b, contains), BoxWritten(d1, d2));
      WindowedBoxRows(fields, b, contains, d1, d2);
      r
  }

  lemma FieldBoxRowsTail(fields: seq<Field>, b: Roi, contains: Contains)
    requires b.Box? && fields != [] && forall k :: 0 <= k < |fields| ==> WellShaped(fields[k])
    ensures FieldBoxRows(fields, b, contains)[0] == BoxRow(fields[0].time, BoxSelection(fields[0], b, contains))
    ensures FieldBoxRows(fields, b, contains)[1..] == FieldBoxRows(fields[1..], b, contains)
  {
  }

  /** The window filter over the box rows keeps one row per field in the window, and nothing
      else. */
  lemma WindowedBoxRows(fields: seq<Field>, b: Roi, contains: Contains, d1: Date, d2: Date)
    requires b.Box? && forall k :: 0 <= k < |fields| ==> WellShaped(fields[k])
    ensures var r := Filter(FieldBoxRows(fields, b, contains), BoxWritten(d1, d2));
      && |r| <= |fields|
      && (forall row :: row in r ==> InWindow(row.time, d1, d2))
      && (forall k :: 0 <= k < |fields| && InWindow(fields[k].time, d1, d2) ==>
            BoxRow(fields[k].time, BoxSelection(fields[k], b, contains)) in r)
  {
    var all := FieldBoxRows(fields, b, contains);
    forall k | 0 <= k < |fields| && InWindow(fields[k].time, d1, d2)
      ensures BoxRow(fields[k].time, BoxSelection(fields[k], b, contains)) in Filter(all, BoxWritten(d1, d2))
    {
      assert all[k] == BoxRow(fields[k].time, BoxSelection(fields[k], b, contains));
    }
  }

  /** When every field lies in the window, every field gives one row. */
  lemma {:induction false} BoxRowsAllInWindow(fields: seq<Field>, b: Roi, contains: Contains, d1: Date, d2: Date)
    requires b.Box? && forall k :: 0 <= k < |fields| ==> WellShaped(fields[k])
    requires forall k :: 0 <= k < |fields| ==> InWindow(fields[k].time, d1, d2)
    ensures |BoxRows(fields, b, contains, d1, d2)| == |fields|
  {
    if fields != [] {
      BoxRowsAllInWindow(fields[1..], b, contains, d1, d2);
    }
  }
}

=== FILE: region.dfy ===
/** The region of interest given with `-r`: either a point `lat,lon` or a box `S,N,W,E`, checked
    field by field in the script's order, and the closed outline of a box handed to the
    point-in-polygon test. Coordinates are exact reals. */
module Region {
  import opened Wrappers
  import opened Text

  /** The numeric test the script applies to every field:
      `s.replace('.', '', 1).replace('-', '', 1).isnumeric()`. */
  predicate PassesNumericCheck(s: string)
    ensures PassesNumericCheck(s) ==> exists k :: 0 <= k < |s| && IsDigit(s[k])
    ensures PassesNumericCheck(s) ==> forall k :: 0 <= k < |s| ==> IsDigit(s[k]) || s[k] == '.' || s[k] == '-'
  {
    NumericCheckAlphabet(s);
    IsNumeric(RemoveFirst(RemoveFirst(s, '.'), '-'))
  }

  /** What survives the two removals is all digits, so the field holds at least one digit and
      nothing but digits, points and minus signs. */
  lemma NumericCheckAlphabet(s: string)
    ensures IsNumeric(RemoveFirst(RemoveFirst(s, '.'), '-')) ==>
      && (exists k :: 0 <= k < |s| && IsDigit(s[k]))
      && (forall k :: 0 <= k < |s| ==> IsDigit(s[k]) || s[k] == '.' || s[k] == '-')
  {
    var u := RemoveFirst(s, '.');
    var t := RemoveFirst(u, '-');
    if IsNumeric(t) {
      forall k | 0 <= k < |s| ensures IsDigit(s[k]) || s[k] == '.' || s[k] == '-' {
        var d := s[k];
        if d != '.' && d != '-' {
          RemoveFirstKeeps(s, '.', d);
          RemoveFirstKeeps(u, '-', d);
          var j :| 0 <= j < |t| && t[j] == d;
        }
      }
      var d := t[0];
      assert IsDigit(d) && d in t;
      RemoveFirstKeeps(u, '-', d);
      RemoveFirstKeeps(s, '.', d);
      var k :| 0 <= k < |s| && s[k] == d;
    }
  }

  /** Decimal digits with at most one point and at least one digit: `7`, `7.`, `.5`, `51.51`. */
  predicate IsUnsignedDecimal(s: string) {
    if '.' in s then
      var i := FirstIndex(s, '.');
      AllDigits(s[..i]) && AllDigits(s[i + 1..]) && |s| >= 2
    else IsNumeric(s)
  }

  /** The strings `float()` accepts among those built from digits, one point and one minus sign:
      an optional leading `-` followed by an unsigned decimal. */
  predicate IsDecimalLiteral(s: string) {
    if |s| > 0 && s[0] == '-' then IsUnsignedDecimal(s[1..]) else IsUnsignedDecimal(s)
  }

  function ParseUnsigned(s: string): (r: Option<real>)
    ensures r.Some? <==> IsUnsignedDecimal(s)
    ensures r.Some? ==> r.value >= 0.0
  {
    if '.' in s then
      var i := FirstIndex(s, '.');
      var whole, frac := s[..i], s[i + 1..];
      if AllDigits(whole) && AllDigits(frac) && |s| >= 2 then
        Some(Value(whole) as real + Value(frac) as real / Pow10(|frac|) as real)
      else None
    else if IsNumeric(s) then Some(Value(s) as real)
    else None
  }

  /** `float(s)` for a field of digits, `.` and `-`, the only fields either numeric test lets
      through; `None` is the `ValueError` it raises. Other spellings `float` accepts, such as
      `+5`, ` 5`, `1e3`, `1_0` or `inf`, are `None` here. */
  function ParseDecimal(s: string): (r: Option<real>)
    ensures r.Some? <==> IsDecimalLiteral(s)
    ensures r.Some? && (|s| == 0 || s[0] != '-') ==> r.value >= 0.0
  {
    if |s| > 0 && s[0] == '-' then
      match ParseUnsigned(s[1..])
      case None => None
      case Some(v) => Some(-v)
    else ParseUnsigned(s)
  }

  /** `float('w.f')`: the digits on both sides of the point read as one integer and scaled down by
      ten per fractional digit, and negated under a leading `-`. Either side may be empty, not both. */
  lemma ParseFraction(w: string, f: string)
    requires AllDigits(w) && AllDigits(f) && |w| + |f| >= 1
    ensures AllDigits(w + f)
    ensures ParseDecimal(w + "." + f) == Some(Value(w + f) as real / Pow10(|f|) as real)
    ensures ParseDecimal("-" + w + "." + f) == Some(-(Value(w + f) as real / Pow10(|f|) as real))
  {
    var s := w + "." + f;
    UnsignedFraction(w, f);
    assert s[0] != '-' by {
      assert IsDigit(s[0]) || s[0] == '.';
    }
    assert "-" + w + "." + f == "-" + s;
    Negated(s);
  }

  /** `float('-' + s)` is the negation of the unsigned reading of `s`. */
  lemma Negated(s: string)
    ensures ParseDecimal("-" + s) == if ParseUnsigned(s).Some? then Some(-ParseUnsigned(s).value) else None
  {
    assert ("-" + s)[0] == '-' && ("-" + s)[1..] == s;
  }

  lemma UnsignedFraction(w: string, f: string)
    requires AllDigits(w) && AllDigits(f) && |w| + |f| >= 1
    ensures AllDigits(w + f)
    ensures ParseUnsigned(w + "." + f) == Some(Value(w + f) as real / Pow10(|f|) as real)
  {
    ValueConcat(w, f);
    PointAfterDigits(w, f);
    ScaleDown(Value(w), Pow10(|f|), Value(f));
  }

  /** The first point of `w.f`, with `w` all digits, is the one after `w`. */
  lemma PointAfterDigits(w: string, f: string)
    requires AllDigits(w)
    ensures '.' in w + "." + f
    ensures FirstIndex(w + "." + f, '.') == |w|
    ensures (w + "." + f)[..|w|] == w && (w + "." + f)[|w| + 1..] == f
  {
    var s := w + "." + f;
    DigitsExclude(w, '.');
    assert s[|w|] == '.';
    var i := FirstIndex(s, '.');
    assert forall k :: 0 <= k < |w| ==> s[k] == w[k];
  }

  lemma ScaleDown(x: nat, p: nat, y: nat)
    requires p >= 1
    ensures (x * p + y) as real / p as real == x as real + y as real / p as real
  {
    assert (x * p) as real == x as real * p as real;
  }

  /** A worked latitude: `float('-0.5')` is minus one half. */
  lemma ParseHalfDegreeSouth()
    ensures ParseDecimal("-0.5") == Some(-0.5)
  {
    ParseFraction("0", "5");
    assert "-" + "0" + "." + "5" == "-0.5";
    assert "0" + "5" == "05";
    assert Value("05") == 5;
  }

  /** Without a decimal point, an unsigned decimal is a non-empty digit string. */
  lemma UnsignedIffCheck(s: string)
    ensures IsUnsignedDecimal(s) <==> IsNumeric(RemoveFirst(s, '.'))
  {
    if '.' in s {
      var i := FirstIndex(s, '.');
      var r := RemoveFirst(s, '.');
      assert r == s[..i] + s[i + 1..];
      AllDigitsConcat(s[..i], s[i + 1..]);
    }
  }

  /** The script's check accepts exactly the decimal literals plus the strings with a `-` that is
      not in front, such as `1-2` and `5-`, which `float()` then rejects. */
  lemma NumericCheckIsLooser(s: string)
    ensures IsDecimalLiteral(s) <==> PassesNumericCheck(s) && ('-' in s ==> s[0] == '-')
  {
    if |s| > 0 && s[0] == '-' {
      RemoveFirstPastHead(s, '.');
      var t := RemoveFirst(s, '.');
      assert t == ['-'] + RemoveFirst(s[1..], '.');
      assert RemoveFirst(t, '-') == RemoveFirst(s[1..], '.') by {
        assert FirstIndex(t, '-') == 0;
      }
      UnsignedIffCheck(s[1..]);
    } else {
      UnsignedIffCheck(s);
      RemoveFirstKeeps(s, '.', '-');
      var t := RemoveFirst(s, '.');
      if '-' in s {
        var k :| 0 <= k < |t| && t[k] == '-';
        assert !IsDigit(t[k]);
      }
    }
  }

  /** A field made of a minus sign after a digit passes the check yet is no number. */
  lemma MisplacedMinusPassesCheck()
    ensures PassesNumericCheck("1-2") && ParseDecimal("1-2").None?
    ensures PassesNumericCheck("5-") && ParseDecimal("5-").None?
  {
    assert RemoveFirst("1-2", '.') == "1-2";
    assert FirstIndex("1-2", '-') == 1;
    assert RemoveFirst("1-2", '-') == "12";
    assert RemoveFirst("5-", '.') == "5-";
    assert FirstIndex("5-", '-') == 1;
    assert RemoveFirst("5-", '-') == "5";
  }

  /** `'%d' % i` for any integer. */
  function IntToString(i: int): (s: string)
    ensures |s| >= 1 && ',' !in s
  {
    var digits := NatToString(if i < 0 then -i else i);
    DigitsExclude(digits, ',');
    assert "-"[0] != ',';
    if i < 0 then "-" + digits else digits
  }

  /** `float('%d' % i) == i`: whole numbers written out are read back exactly. */
  lemma ParseIntToString(i: int)
    ensures ParseDecimal(IntToString(i)) == Some(i as real)
  {
    var digits := NatToString(if i < 0 then -i else i);
    DigitsExclude(digits, '.');
    if i < 0 {
      assert ("-" + digits)[1..] == digits;
    } else {
      assert digits[0] != '-' by {
        assert IsDigit(digits[0]);
      }
    }
  }

  /** The validated region, in the layout the script keeps: `[lat, lon]` or `[S, N, W, E]`. */
  datatype Roi = Point(lat: real, lon: real) | Box(south: real, north: real, west: real, east: real)

  /** Why validation stops the run. `Unparsable` is the uncaught `ValueError` of `float()`;
      `NotGiven` is the default text, after which the script meets `len(ROI)` with `ROI` never
      assigned and stops with a `NameError`. */
  datatype RoiError = NotGiven | NotNumeric | OutOfRange | EmptyBox | WrongFieldCount | Unparsable

  /** The option's default, which counts as no region given. */
  const NoRegion: string := "0,0"

  predicate LatitudeOk(x: real) {
    -90.0 <= x <= 90.0
  }

  predicate LongitudeOk(x: real) {
    -180.0 <= x <= 180.0
  }

  /** The two-field branch: `lat,lon`. The longitude is converted and range-checked before the
      latitude is converted. */
  function ValidatePoint(latField: string, lonField: string, numeric: string -> bool): (r: Result<Roi, RoiError>)
    ensures r != Err(NotGiven) && r != Err(WrongFieldCount)
    ensures r == Err(Unparsable) ==>
      numeric(latField) && numeric(lonField) && (!IsDecimalLiteral(latField) || !IsDecimalLiteral(lonField))
    ensures r.Ok? ==>
      && r.value.Point?
      && numeric(latField) && numeric(lonField)
      && ParseDecimal(latField) == Some(r.value.lat) && ParseDecimal(lonField) == Some(r.value.lon)
      && LatitudeOk(r.value.lat) && LongitudeOk(r.value.lon)
  {
    if !numeric(lonField) || !numeric(latField) then Err(NotNumeric)
    else match ParseDecimal(lonField)
      case None => Err(Unparsable)
      case Some(lon) =>
        if !LongitudeOk(lon) then Err(OutOfRange)
        else match ParseDecimal(latField)
          case None => Err(Unparsable)
          case Some(lat) => if !LatitudeOk(lat) then Err(OutOfRange) else Ok(Point(lat, lon))
  }

  /** Conversion of one field followed by its range check; the first failure stops the chain. */
  function CheckedField(field: string, ok: real -> bool): Result<real, RoiError> {
    match ParseDecimal(field)
    case None => Err(Unparsable)
    case Some(v) => if ok(v) then Ok(v) else Err(OutOfRange)
  }

  /** The four-field branch: `S,N,W,E`, converted and range-checked in the order W, E, S, N, then
      required to span a non-empty box. */
  function ValidateBox(fields: seq<string>, numeric: string -> bool): (r: Result<Roi, RoiError>)
    requires |fields| == 4
    ensures r != Err(NotGiven) && r != Err(WrongFieldCount)
    ensures r == Err(Unparsable) ==>
      && numeric(fields[0]) && numeric(fields[1]) && numeric(fields[2]) && numeric(fields[3])
      && (!IsDecimalLiteral(fields[0]) || !IsDecimalLiteral(fields[1])
          || !IsDecimalLiteral(fields[2]) || !IsDecimalLiteral(fields[3]))
    ensures r.Ok? ==>
      && r.value.Box?
      && numeric(fields[0]) && numeric(fields[1]) && numeric(fields[2]) && numeric(fields[3])
      && ParseDecimal(fields[0]) == Some(r.value.south) && ParseDecimal(fields[1]) == Some(r.value.north)
      && ParseDecimal(fields[2]) == Some(r.value.west) && ParseDecimal(fields[3]) == Some(r.value.east)
      && LatitudeOk(r.value.south) && LatitudeOk(r.value.north)
      && LongitudeOk(r.value.west) && LongitudeOk(r.value.east)
      && r.value.west < r.value.east && r.value.south < r.value.north
  {
    if !numeric(fields[0]) || !numeric(fields[1]) || !numeric(fields[2]) || !numeric(fields[3]) then
      Err(NotNumeric)
    else match CheckedField(fields[2], LongitudeOk)
      case Err(e) => Err(e)
      case Ok(w) => match CheckedField(fields[3], LongitudeOk)
        case Err(e) => Err(e)
        case Ok(e) => match CheckedField(fields[0], LatitudeOk)
          case Err(err) => Err(err)
          case Ok(s) => match CheckedField(fields[1], LatitudeOk)
            case Err(err) => Err(err)
            case Ok(n) => if w >= e || s >= n then Err(EmptyBox) else Ok(Box(s, n, w, e))
  }

  /** The whole validation of the `-r` string with a given numeric test. */
  function ValidateRoiWith(roi: string, numeric: string -> bool): (r: Result<Roi, RoiError>)
    ensures r == Err(NotGiven) <==> roi == NoRegion
    ensures r == Err(WrongFieldCount) <==> roi != NoRegion && |Split(roi, ',')| != 2 && |Split(roi, ',')| != 4
    ensures r.Ok? && r.value.Point? ==> var fields := Split(roi, ',');
      && |fields| == 2
      && ParseDecimal(fields[0]) == Some(r.value.lat)
      && ParseDecimal(fields[1]) == Some(r.value.lon)
      && LatitudeOk(r.value.lat) && LongitudeOk(r.value.lon)
    ensures r.Ok? && r.value.Box? ==> var fields := Split(roi, ',');
      && |fields| == 4
      && ParseDecimal(fields[0]) == Some(r.value.south)
      && ParseDecimal(fields[1]) == Some(r.value.north)
      && ParseDecimal(fields[2]) == Some(r.value.west)
      && ParseDecimal(fields[3]) == Some(r.value.east)
      && LatitudeOk(r.value.south) && LatitudeOk(r.value.north)
      && LongitudeOk(r.value.west) && LongitudeOk(r.value.east)
      && r.value.west < r.value.east && r.value.south < r.value.north
    ensures r.Ok? ==> forall k :: 0 <= k < |Split(roi, ',')| ==> numeric(Split(roi, ',')[k])
  {
    if roi == NoRegion then Err(NotGiven)
    else
      var fields := Split(roi, ',');
      if |fields| == 2 then ValidatePoint(fields[0], fields[1], numeric)
      else if |fields| == 4 then ValidateBox(fields, numeric)
      else Err(WrongFieldCount)
  }

  /** The validation as the script performs it, with the looser numeric check: it stops in
      `float()` only on a field that passes the check without being a number, and that field is
      one the corrected validation reports as not numeric. */
  function ValidateRoiAsWritten(roi: string): (r: Result<Roi, RoiError>)
    ensures r == Err(Unparsable) ==> exists k :: (
      && 0 <= k < |Split(roi, ',')|
      && PassesNumericCheck(Split(roi, ',')[k]) && !IsDecimalLiteral(Split(roi, ',')[k]))
    ensures r == Err(Unparsable) ==> ValidateRoiWith(roi, IsDecimalLiteral) == Err(NotNumeric)
  {
    UnparsableField(roi, PassesNumericCheck);
    ValidateRoiWith(roi, PassesNumericCheck)
  }

  /** A conversion failure comes after every field passed the numeric test, on a field that is no
      decimal literal; the literal test would have refused that field before any conversion. */
  lemma UnparsableField(roi: string, numeric: string -> bool)
    ensures ValidateRoiWith(roi, numeric) == Err(Unparsable) ==>
      && (forall k :: 0 <= k < |Split(roi, ',')| ==> numeric(Split(roi, ',')[k]))
      && (exists k :: 0 <= k < |Split(roi, ',')| && !IsDecimalLiteral(Split(roi, ',')[k]))
      && ValidateRoiWith(roi, IsDecimalLiteral) == Err(NotNumeric)
  {
    var fields := Split(roi, ',');
    if ValidateRoiWith(roi, numeric) == Err(Unparsable) {
      if |fields| == 2 {
        assert ValidateRoiWith(roi, numeric) == ValidatePoint(fields[0], fields[1], numeric);
        assert ValidateRoiWith(roi, IsDecimalLiteral) == ValidatePoint(fields[0], fields[1], IsDecimalLiteral);
      } else {
        assert ValidateRoiWith(roi, numeric) == ValidateBox(fields, numeric);
        assert ValidateRoiWith(roi, IsDecimalLiteral) == ValidateBox(fields, IsDecimalLiteral);
      }
    }
  }

  /** The validation with the numeric check replaced by the decimal-literal test, so that every
      field it lets through converts. */
  function ValidateRoi(roi: string): (r: Result<Roi, RoiError>)
    ensures r != Err(Unparsable)
  {
    ValidateRoiWith(roi, IsDecimalLiteral)
  }

  /** A field of an accepted region converts, so it is a decimal literal and passes both tests. */
  lemma AcceptedFieldsAreLiterals(roi: string, numeric: string -> bool)
    requires ValidateRoiWith(roi, numeric).Ok?
    ensures forall k :: 0 <= k < |Split(roi, ',')| ==>
      IsDecimalLiteral(Split(roi, ',')[k]) && PassesNumericCheck(Split(roi, ',')[k])
  {
    var fields := Split(roi, ',');
    var v := ValidateRoiWith(roi, numeric).value;
    forall k | 0 <= k < |fields|
      ensures IsDecimalLiteral(fields[k]) && PassesNumericCheck(fields[k])
    {
      if v.Point? {
        assert ParseDecimal(fields[k]).Some? by {
          assert k == 0 || k == 1;
        }
      } else {
        assert ParseDecimal(fields[k]).Some? by {
          assert k == 0 || k == 1 || k == 2 || k == 3;
        }
      }
      NumericCheckIsLooser(fields[k]);
    }
  }

  /** Two numeric tests that accept every field lead to the same outcome. */
  lemma SameOutcomeWhenAllPass(roi: string, p: string -> bool, q: string -> bool)
    requires forall k :: 0 <= k < |Split(roi, ',')| ==> p(Split(roi, ',')[k]) && q(Split(roi, ',')[k])
    ensures ValidateRoiWith(roi, p) == ValidateRoiWith(roi, q)
  {
  }

  /** The script and the corrected validation accept the same regions with the same values; they
      differ only in how a field with a misplaced minus sign is rejected. */
  lemma SameAcceptedRegions(roi: string)
    ensures ValidateRoiAsWritten(roi).Ok? <==> ValidateRoi(roi).Ok?
    ensures ValidateRoiAsWritten(roi).Ok? ==> ValidateRoiAsWritten(roi) == ValidateRoi(roi)
  {
    if ValidateRoiAsWritten(roi).Ok? {
      AcceptedFieldsAreLiterals(roi, PassesNumericCheck);
      SameOutcomeWhenAllPass(roi, PassesNumericCheck, IsDecimalLiteral);
    }
    if ValidateRoi(roi).Ok? {
      AcceptedFieldsAreLiterals(roi, IsDecimalLiteral);
      SameOutcomeWhenAllPass(roi, PassesNumericCheck, IsDecimalLiteral);
    }
  }

  /** As written, a latitude `1-2` passes the numeric check and then stops the script in `float()`. */
  lemma MisplacedMinusCrashes()
    ensures ValidateRoiAsWritten("1-2,0") == Err(Unparsable)
    ensures ValidateRoi("1-2,0") == Err(NotNumeric)
  {
    var fields := ["1-2", "0"];
    assert Split("1-2,0", ',') == fields by {
      SplitJoin(fields, ',');
      assert Join(fields, ',') == "1-2,0";
    }
    TwoFields("1-2,0", PassesNumericCheck);
    TwoFields("1-2,0", IsDecimalLiteral);
    MisplacedMinusPassesCheck();
    NumericCheckIsLooser("1-2");
    ZeroField();
    assert LongitudeOk(0.0);
  }

  /** A region of two fields other than the default is validated as a point. */
  lemma TwoFields(roi: string, numeric: string -> bool)
    requires roi != NoRegion && |Split(roi, ',')| == 2
    ensures ValidateRoiWith(roi, numeric) == ValidatePoint(Split(roi, ',')[0], Split(roi, ',')[1], numeric)
  {
  }

  /** The field `0` passes both tests and converts to zero. */
  lemma ZeroField()
    ensures PassesNumericCheck("0") && IsDecimalLiteral("0") && ParseDecimal("0") == Some(0.0)
  {
    ParseIntToString(0);
    assert IntToString(0) == "0";
    NumericCheckIsLooser("0");
  }

  /** A point is accepted exactly when the text is two fields, other than the default, that convert
      to a latitude and a longitude in range. */
  lemma PointAcceptance(roi: string, lat: real, lon: real)
    ensures ValidateRoi(roi) == Ok(Point(lat, lon)) <==>
      && roi != NoRegion && |Split(roi, ',')| == 2
      && ParseDecimal(Split(roi, ',')[0]) == Some(lat)
      && ParseDecimal(Split(roi, ',')[1]) == Some(lon)
      && LatitudeOk(lat) && LongitudeOk(lon)
  {
  }

  /** A box is accepted exactly when the text is four fields that convert to latitudes and
      longitudes in range, with west below east and south below north. */
  lemma BoxAcceptance(roi: string, south: real, north: real, west: real, east: real)
    ensures ValidateRoi(roi) == Ok(Box(south, north, west, east)) <==>
      && roi != NoRegion && |Split(roi, ',')| == 4
      && ParseDecimal(Split(roi, ',')[0]) == Some(south)
      && ParseDecimal(Split(roi, ',')[1]) == Some(north)
      && ParseDecimal(Split(roi, ',')[2]) == Some(west)
      && ParseDecimal(Split(roi, ',')[3]) == Some(east)
      && LatitudeOk(south) && LatitudeOk(north) && LongitudeOk(west) && LongitudeOk(east)
      && west < east && south < north
  {
  }

  /** Whole-degree points written as `lat,lon` are read back; the origin is the exception, because
      its text is the option's default. */
  lemma {:induction false} PointRoundTrip(lat: int, lon: int)
    requires -90 <= lat <= 90 && -180 <= lon <= 180
    ensures (lat, lon) != (0, 0) ==>
      ValidateRoi(IntToString(lat) + "," + IntToString(lon)) == Ok(Point(lat as real, lon as real))
    ensures (lat, lon) == (0, 0) ==>
      ValidateRoi(IntToString(lat) + "," + IntToString(lon)) == Err(NotGiven)
  {
    var a, b := IntToString(lat), IntToString(lon);
    assert Join([a, b], ',') == a + "," + b;
    SplitJoin([a, b], ',');
    ParseIntToString(lat);
    ParseIntToString(lon);
    if (lat, lon) == (0, 0) {
      assert a == "0" && b == "0";
    } else {
      DefaultIsTwoZeros();
      assert a + "," + b == NoRegion ==> lat == 0 && lon == 0;
      PointAcceptance(a + "," + b, lat as real, lon as real);
    }
  }

  /** Whole-degree boxes written as `S,N,W,E` are read back. */
  lemma {:induction false} BoxRoundTrip(south: int, north: int, west: int, east: int)
    requires -90 <= south < north <= 90 && -180 <= west < east <= 180
    ensures ValidateRoi(IntToString(south) + "," + IntToString(north) + "," + IntToString(west) + "," + IntToString(east))
         == Ok(Box(south as real, north as real, west as real, east as real))
  {
    var s, n, w, e := IntToString(south), IntToString(north), IntToString(west), IntToString(east);
    var roi := s + "," + n + "," + w + "," + e;
    SplitFour(s, n, w, e);
    ParseIntToString(south);
    ParseIntToString(north);
    ParseIntToString(west);
    ParseIntToString(east);
    DefaultIsTwoZeros();
    assert roi != NoRegion;
    BoxAcceptance(roi, south as real, north as real, west as real, east as real);
  }

  lemma SplitFour(s: string, n: string, w: string, e: string)
    requires ',' !in s && ',' !in n && ',' !in w && ',' !in e
    ensures Split(s + "," + n + "," + w + "," + e, ',') == [s, n, w, e]
  {
    assert Join([w, e], ',') == w + "," + e;
    assert Join([n, w, e], ',') == n + "," + (w + "," + e);
    assert Join([s, n, w, e], ',') == s + "," + (n + "," + (w + "," + e));
    assert s + "," + (n + "," + (w + "," + e)) == s + "," + n + "," + w + "," + e;
    SplitJoin([s, n, w, e], ',');
  }

  /** The origin has to be written with a decimal point. */
  lemma OriginNeedsDecimalPoint()
    ensures ValidateRoi("0,0") == Err(NotGiven)
    ensures ValidateRoi("0.0,0") == Ok(Point(0.0, 0.0))
  {
    SplitJoin(["0.0", "0"], ',');
    assert Join(["0.0", "0"], ',') == "0.0,0";
    assert FirstIndex("0.0", '.') == 1;
    assert ParseDecimal("0.0") == Some(0.0) by {
      assert "0.0"[..1] == "0" && "0.0"[2..] == "0";
    }
    ParseIntToString(0);
    assert IntToString(0) == "0";
  }

  /** The box outline `(lonbbox[k], latbbox[k])`: south-west, south-east, north-east, north-west
      and south-west again, as (longitude, latitude) pairs. */
  function Corners(b: Roi): (path: seq<(real, real)>)
    requires b.Box?
    ensures |path| == 5 && path[0] == path[4]
    ensures forall k :: 0 <= k < 5 ==>
      (path[k].0 == b.west || path[k].0 == b.east) && (path[k].1 == b.south || path[k].1 == b.north)
    ensures forall k :: 0 <= k < 4 ==> path[k].0 == path[k + 1].0 || path[k].1 == path[k + 1].1
  {
    [(b.west, b.south), (b.east, b.south), (b.east, b.north), (b.west, b.north), (b.west, b.south)]
  }

  /** Twice the signed area enclosed by a path (the shoelace sum), positive when the path turns
      counter-clockwise. */
  function TwiceSignedArea(path: seq<(real, real)>): real {
    if |path| < 2 then 0.0
    else path[0].0 * path[1].1 - path[1].0 * path[0].1 + TwiceSignedArea(path[1..])
  }

  /** The outline's shoelace sum is twice the box's area, so it runs counter-clockwise; `Corners`
      states that its vertices are the box's corners. */
  lemma {:induction false} CornersEncloseBox(b: Roi)
    requires b.Box?
    ensures TwiceSignedArea(Corners(b)) == 2.0 * (b.east - b.west) * (b.north - b.south)
  {
    var p := Corners(b);
    var w, e, s, n := b.west, b.east, b.south, b.north;
    assert p[4..] == [(w, s)];
    assert TwiceSignedArea(p[4..]) == 0.0;
    assert p[3..][1..] == p[4..];
    assert TwiceSignedArea(p[3..]) == w * s - w * n;
    assert p[2..][1..] == p[3..];
    assert TwiceSignedArea(p[2..]) == e * n - w * n + w * s - w * n;
    assert p[1..][1..] == p[2..];
    assert TwiceSignedArea(p[1..]) == e * n - e * s + e * n - w * n + w * s - w * n;
    assert TwiceSignedArea(p) == 2.0 * (w * s - e * s + e * n - w * n);
  }

  /** Every accepted box has a non-degenerate, counter-clockwise outline. */
  lemma AcceptedBoxOutline(roi: string)
    requires ValidateRoi(roi).Ok? && ValidateRoi(roi).value.Box?
    ensures TwiceSignedArea(Corners(ValidateRoi(roi).value)) > 0.0
  {
    var b := ValidateRoi(roi).value;
    assert b.west < b.east && b.south < b.north;
    NonEmptyBoxOutline(b);
  }

  lemma NonEmptyBoxOutline(b: Roi)
    requires b.Box? && b.west < b.east && b.south < b.north
    ensures TwiceSignedArea(Corners(b)) > 0.0
  {
    CornersEncloseBox(b);
    var x, y := b.east - b.west, b.north - b.south;
    assert x * y > 0.0;
  }

  /** The default text splits into two zero fields. */
  lemma DefaultIsTwoZeros()
    ensures Split(NoRegion, ',') == ["0", "0"]
    ensures IntToString(0) == "0" && ParseDecimal("0") == Some(0.0)
  {
    SplitJoin(["0", "0"], ',');
    assert Join(["0", "0"], ',') == NoRegion;
    ParseIntToString(0);
  }
}

=== FILE: seqs.dfy ===
/** Order-preserving selection from sequences: list comprehensions with an `if`, and numpy's
    `np.where(mask)[0]` followed by fancy indexing. */
module Seqs {

  /** `a` can be obtained from `b` by deleting elements, keeping the order of the rest. */
  predicate IsSubsequence<T(==)>(a: seq<T>, b: seq<T>)
    decreases |b|
  {
    a == [] || (b != [] && ((a[0] == b[0] && IsSubsequence(a[1..], b[1..])) || IsSubsequence(a, b[1..])))
  }

  /** The elements of `xs` that satisfy `p`, in their original order. */
  function Filter<T(==,!new)>(xs: seq<T>, p: T -> bool): (r: seq<T>)
    ensures |r| <= |xs|
    ensures forall x :: x in r <==> x in xs && p(x)
    ensures IsSubsequence(r, xs)
  {
    if xs == [] then []
    else
      var rest := Filter(xs[1..], p);
      assert forall x :: x in xs <==> x == xs[0] || x in xs[1..];
      if p(xs[0]) then
        assert ([xs[0]] + rest)[1..] == rest;
        [xs[0]] + rest
      else rest
  }

  /** Filtering keeps every occurrence: an element appears in the result as often as in the input
      when it satisfies the predicate, and not at all otherwise. */
  lemma {:induction false} FilterKeepsMultiplicity<T(!new)>(xs: seq<T>, p: T -> bool, x: T)
    ensures multiset(Filter(xs, p))[x] == if p(x) then multiset(xs)[x] else 0
  {
    if xs != [] {
      FilterKeepsMultiplicity(xs[1..], p, x);
      assert xs == [xs[0]] + xs[1..];
      assert multiset(xs) == multiset([xs[0]]) + multiset(xs[1..]);
      if p(xs[0]) {
        assert multiset(Filter(xs, p)) == multiset([xs[0]]) + multiset(Filter(xs[1..], p));
      }
    }
  }

  /** Filtering with a predicate every element satisfies returns the input unchanged. */
  lemma {:induction false} FilterAll<T(!new)>(xs: seq<T>, p: T -> bool)
    requires forall k :: 0 <= k < |xs| ==> p(xs[k])
    ensures Filter(xs, p) == xs
  {
    if xs != [] {
      FilterAll(xs[1..], p);
      assert xs == [xs[0]] + xs[1..];
    }
  }

  /** `np.where(mask)[0]`: the positions of the `True` entries, ascending. */
  function Where(mask: seq<bool>): (idx: seq<nat>)
    ensures forall k :: 0 <= k < |idx| ==> idx[k] < |mask| && mask[idx[k]]
    ensures forall i :: 0 <= i < |mask| && mask[i] ==> i in idx
    ensures forall j, k :: 0 <= j < k < |idx| ==> idx[j] < idx[k]
  {
    if mask == [] then []
    else
      var n := |mask| - 1;
      var front := Where(mask[..n]);
      assert forall i :: 0 <= i < n ==> mask[..n][i] == mask[i];
      front + (if mask[n] then [n] else [])
  }

  /** `xs[idx]` for an integer index array: the elements at the given positions, in that order. */
  function Gather<T>(xs: seq<T>, idx: seq<nat>): (r: seq<T>)
    requires forall k :: 0 <= k < |idx| ==> idx[k] < |xs|
    ensures |r| == |idx|
  {
    seq(|idx|, k requires 0 <= k < |idx| => xs[idx[k]])
  }

  /** The elements of `xs` at the positions where `mask` holds, in order: boolean-mask indexing. */
  function Compress<T>(xs: seq<T>, mask: seq<bool>): (r: seq<T>)
    requires |xs| == |mask|
    ensures |r| <= |xs|
  {
    if xs == [] then []
    else
      var n := |xs| - 1;
      Compress(xs[..n], mask[..n]) + (if mask[n] then [xs[n]] else [])
  }

  /** Indexing with `np.where(mask)[0]` is boolean-mask indexing. */
  lemma {:induction false} GatherWhereIsCompress<T>(xs: seq<T>, mask: seq<bool>)
    requires |xs| == |mask|
    ensures Gather(xs, Where(mask)) == Compress(xs, mask)
  {
    if xs != [] {
      var n := |xs| - 1;
      var front := Where(mask[..n]);
      GatherWhereIsCompress(xs[..n], mask[..n]);
      GatherPrefix(xs, n, front);
      var tail := if mask[n] then [n] else [];
      assert Where(mask) == front + tail;
      GatherAppend(xs, front, tail);
      assert Gather(xs, tail) == if mask[n] then [xs[n]] else [];
    }
  }

  lemma GatherPrefix<T>(xs: seq<T>, n: nat, idx: seq<nat>)
    requires n <= |xs| && forall k :: 0 <= k < |idx| ==> idx[k] < n
    ensures Gather(xs, idx) == Gather(xs[..n], idx)
  {
  }

  lemma GatherAppend<T>(xs: seq<T>, a: seq<nat>, b: seq<nat>)
    requires forall k :: 0 <= k < |a| ==> a[k] < |xs|
    requires forall k :: 0 <= k < |b| ==> b[k] < |xs|
    ensures Gather(xs, a + b) == Gather(xs, a) + Gather(xs, b)
  {
  }

  /** A mask that holds everywhere selects everything. */
  lemma {:induction false} CompressAll<T>(xs: seq<T>, mask: seq<bool>)
    requires |xs| == |mask| && forall k :: 0 <= k < |mask| ==> mask[k]
    ensures Compress(xs, mask) == xs
  {
    if xs != [] {
      var n := |xs| - 1;
      CompressAll(xs[..n], mask[..n]);
      assert xs == xs[..n] + [xs[n]];
    }
  }

  /** A mask that holds nowhere selects nothing. */
  lemma {:induction false} CompressNone<T>(xs: seq<T>, mask: seq<bool>)
    requires |xs| == |mask| && forall k :: 0 <= k < |mask| ==> !mask[k]
    ensures Compress(xs, mask) == []
  {
    if xs != [] {
      var n := |xs| - 1;
      CompressNone(xs[..n], mask[..n]);
    }
  }

  /** Every selected element sits at a position the mask holds, and every such element is
      selected. */
  lemma {:induction false} CompressMembers<T>(xs: seq<T>, mask: seq<bool>, x: T)
    requires |xs| == |mask|
    ensures x in Compress(xs, mask) <==> exists i :: 0 <= i < |xs| && mask[i] && xs[i] == x
  {
    if xs != [] {
      var n := |xs| - 1;
      CompressMembers(xs[..n], mask[..n], x);
      if exists i :: 0 <= i < |xs| && mask[i] && xs[i] == x {
        var i :| 0 <= i < |xs| && mask[i] && xs[i] == x;
        if i < n {
          assert xs[..n][i] == x && mask[..n][i];
        }
      }
    }
  }
}

=== FILE: sequencer.dfy ===
/** The date sequencer: from the requested dates and the temporal resolution to the list of date
    fragments that name archive files (API_HadUKGrid_data.py, lines 305-322). */
module Sequencer {
  import opened Wrappers
  import opened Text
  import opened Calendar
  import opened Dedup

  /** The `-t` option: `mon` (one file per year of monthly fields) or `day` (one file per month). */
  datatype Temporal = Monthly | Daily

  function TemporalName(t: Temporal): string {
    match t
    case Monthly => "mon"
    case Daily => "day"
  }

  /** `'%d01-%d12' % (y, y)`: the file holding the twelve monthly fields of year `y`. */
  function YearFragment(y: nat): string {
    NatToString(y) + "01-" + NatToString(y) + "12"
  }

  /** `'%d%02d' % (y, m)`. */
  function MonthToken(y: nat, m: nat): string {
    NatToString(y) + ZeroPad2(m)
  }

  /** `'%d%02d01-%d%02d%d' % (y, m, y, m, monthrange(y, m)[1])`: the file of daily fields of month
      `m` of year `y`. */
  function MonthFragment(y: nat, m: int): string
    requires 1 <= m <= 12
  {
    MonthToken(y, m) + "01-" + MonthToken(y, m) + NatToString(DaysInMonth(y, m))
  }

  /** The fragment of the month a date falls in. */
  function DayFragment(d: Date): string
    requires ValidDate(d)
  {
    MonthFragment(d.year, d.month)
  }

  /** Months numbered consecutively across years. */
  function MonthIndex(d: Date): nat
    requires ValidDate(d)
  {
    12 * d.year + (d.month - 1)
  }

  function MonthFragmentAt(i: nat): string {
    MonthFragment(i / 12, i % 12 + 1)
  }

  /** The fragments of every month from the month of `d1` through the month of `d2`, in calendar
      order. */
  function MonthSpan(d1: Date, d2: Date): (r: seq<string>)
    requires ValidDate(d1) && ValidDate(d2)
    ensures |r| == if MonthIndex(d2) < MonthIndex(d1) then 0 else MonthIndex(d2) - MonthIndex(d1) + 1
  {
    var i1, i2 := MonthIndex(d1), MonthIndex(d2);
    if i2 < i1 then []
    else seq(i2 - i1 + 1, k requires 0 <= k <= i2 - i1 => MonthFragmentAt(i1 + k))
  }

  /** The script's `list_name_date`. `np.arange(date1.year, date2.year + 1, 1)` has
      `date2.year - date1.year + 1` entries (none when that is not positive). Monthly resolution
      gives one fragment per year; daily resolution within one year gives one fragment per month
      of `np.arange(date1.month, date2.month + 1, 1)`; daily resolution over several years maps
      every day of `date_range_list(date1, date2)` to its month's fragment and applies
      `np.unique`. `None` is the `OverflowError` of `date_range_list` at the maximal date. */
  function Fragments(t: Temporal, d1: Date, d2: Date): (r: Option<seq<string>>)
    requires ValidDate(d1) && ValidDate(d2)
    ensures r.None? <==> t == Daily && d1.year < d2.year && d2 == MaxDate
  {
    var years := d2.year - d1.year + 1;
    match t
    case Monthly =>
      Some(YearsOf(d1.year, d2.year))
    case Daily =>
      if years == 1 then Some(MonthsOfYear(d1.year, d1.month, d2.month))
      else if years > 1 then
        match DateRangeList(d1, d2)
        case None => None
        case Some(days) =>
          Some(SortedDistinct(DayFragments(days)))
      else Some([])
  }

  /** The yearly fragments of years `y1` through `y2`, one per year in year order. */
  function YearsOf(y1: nat, y2: int): (r: seq<string>)
    ensures |r| == if y2 < y1 then 0 else y2 - y1 + 1
  {
    var years := y2 - y1 + 1;
    seq(if years < 0 then 0 else years, k requires 0 <= k => YearFragment(y1 + k))
  }

  /** The daily fragments of months `m1` through `m2` of year `y`, one per month in month order. */
  function MonthsOfYear(y: nat, m1: int, m2: int): (r: seq<string>)
    requires 1 <= m1 && m2 <= 12
    ensures |r| == if m2 < m1 then 0 else m2 - m1 + 1
  {
    var months := m2 - m1 + 1;
    seq(if months < 0 then 0 else months, k requires 0 <= k < months => MonthFragment(y, m1 + k))
  }

  /** The fragment of every listed day, one per day, before `np.unique`. */
  function DayFragments(days: seq<Date>): (r: seq<string>)
    requires forall i :: 0 <= i < |days| ==> ValidDate(days[i])
    ensures |r| == |days|
  {
    seq(|days|, i requires 0 <= i < |days| => DayFragment(days[i]))
  }

  // ---------------------------------------------------------------------------------------------
  // Rendering

  /** `'%d%02d%02d'` of a date, the form both halves of a daily fragment take. */
  function DateStamp(d: Date): string
    requires ValidDate(d)
  {
    MonthToken(d.year, d.month) + ZeroPad2(d.day)
  }

  /** A daily fragment runs from the first to the last day of its month: its second half is a
      valid date whose successor starts a new month (or is past the calendar's end). */
  lemma MonthFragmentSpansMonth(y: int, m: int)
    requires MinYear <= y <= MaxYear && 1 <= m <= 12
    ensures var first, last := Date(y, m, 1), Date(y, m, DaysInMonth(y, m));
      && ValidDate(first) && ValidDate(last)
      && MonthFragment(y, m) == DateStamp(first) + "-" + DateStamp(last)
      && (last == MaxDate || Next(last).day == 1)
  {
    var n := DaysInMonth(y, m);
    NatToStringLength(n, 2);
    assert ZeroPad2(n) == NatToString(n);
    assert ZeroPad2(1) == "01";
    var t := MonthToken(y, m);
    assert MonthFragment(y, m) == t + "01" + "-" + t + NatToString(n);
  }

  /** A monthly fragment runs from January to December of its year: its halves are the month
      tokens `YYYY01` and `YYYY12`. */
  lemma YearFragmentSpansYear(y: nat)
    ensures YearFragment(y) == MonthToken(y, 1) + "-" + MonthToken(y, 12)
    ensures Value(MonthToken(y, 1)) == 100 * y + 1 && Value(MonthToken(y, 12)) == 100 * y + 12
  {
    MonthTokenValue(y, 1);
    MonthTokenValue(y, 12);
    assert ZeroPad2(1) == "01";
    assert NatToString(1) == "1";
    assert ZeroPad2(12) == NatToString(1) + [DigitChar(2)] == "12";
    var s := NatToString(y);
    assert YearFragment(y) == (s + "01") + "-" + (s + "12");
  }

  /** The month token is a run of digits denoting `100 * y + m`. */
  lemma MonthTokenValue(y: nat, m: int)
    requires 1 <= m <= 12
    ensures AllDigits(MonthToken(y, m))
    ensures |MonthToken(y, m)| == |NatToString(y)| + 2
    ensures Value(MonthToken(y, m)) == 100 * y + m
  {
    var s, p := NatToString(y), ZeroPad2(m);
    assert p == [p[0]] + [p[1]];
    ValueSnoc(s, p[0]);
    ValueSnoc(s + [p[0]], p[1]);
    assert s + p == s + [p[0]] + [p[1]];
    assert Value(p) == DigitValue(p[0]) * 10 + Value(p[1..]);
    assert Value(p[1..]) == DigitValue(p[1]) * 1 + Value(p[2..]);
  }

  /** With four-digit years, Python's string order on daily fragments is calendar order on
      their months. */
  lemma MonthFragmentOrder(y1: int, m1: int, y2: int, m2: int)
    requires 1000 <= y1 <= MaxYear && 1000 <= y2 <= MaxYear
    requires 1 <= m1 <= 12 && 1 <= m2 <= 12
    ensures Less(MonthFragment(y1, m1), MonthFragment(y2, m2)) <==> 12 * y1 + m1 < 12 * y2 + m2
  {
    var a, b := MonthToken(y1, m1), MonthToken(y2, m2);
    MonthTokenOrder(y1, m1, y2, m2);
    var x := "01-" + a + NatToString(DaysInMonth(y1, m1));
    var z := "01-" + b + NatToString(DaysInMonth(y2, m2));
    MonthFragmentAfterToken(y1, m1);
    MonthFragmentAfterToken(y2, m2);
    if a == b {
      LessIrreflexive(a + x);
    } else {
      LessSameLengthPrefix(a, b, x, z);
    }
  }

  lemma MonthFragmentAfterToken(y: nat, m: int)
    requires 1 <= m <= 12
    ensures MonthFragment(y, m) == MonthToken(y, m) + ("01-" + MonthToken(y, m) + NatToString(DaysInMonth(y, m)))
  {
    var t, n := MonthToken(y, m), NatToString(DaysInMonth(y, m));
    assert t + "01-" + t + n == t + ("01-" + t + n);
  }

  /** With four-digit years, string order on `%d%02d` month tokens is calendar order. */
  lemma MonthTokenOrder(y1: int, m1: int, y2: int, m2: int)
    requires 1000 <= y1 <= MaxYear && 1000 <= y2 <= MaxYear
    requires 1 <= m1 <= 12 && 1 <= m2 <= 12
    ensures |MonthToken(y1, m1)| == |MonthToken(y2, m2)|
    ensures MonthToken(y1, m1) == MonthToken(y2, m2) ==> y1 == y2 && m1 == m2
    ensures Less(MonthToken(y1, m1), MonthToken(y2, m2)) <==> 12 * y1 + m1 < 12 * y2 + m2
  {
    FourDigits(y1);
    FourDigits(y2);
    MonthTokenValue(y1, m1);
    MonthTokenValue(y2, m2);
    LessDigitsIffValueLess(MonthToken(y1, m1), MonthToken(y2, m2));
    MonthKeyOrder(y1, m1, y2, m2);
  }

  /** A month numbered `100 * y + m` and one numbered `12 * y + m` compare alike. */
  lemma MonthKeyOrder(y1: int, m1: int, y2: int, m2: int)
    requires 1 <= m1 <= 12 && 1 <= m2 <= 12
    ensures 100 * y1 + m1 < 100 * y2 + m2 <==> 12 * y1 + m1 < 12 * y2 + m2
    ensures 100 * y1 + m1 == 100 * y2 + m2 ==> y1 == y2 && m1 == m2
  {
  }

  /** `%d` renders distinct years distinctly, so no two years share a monthly fragment. */
  lemma YearFragmentInjective(a: nat, b: nat)
    requires YearFragment(a) == YearFragment(b)
    ensures a == b
  {
    var sa, sb := NatToString(a), NatToString(b);
    assert |sa| == |sb|;
    assert sa == YearFragment(a)[..|sa|];
    assert sb == YearFragment(b)[..|sb|];
  }

  // ---------------------------------------------------------------------------------------------
  // The months touched by a date range

  lemma MonthIndexOrder(a: Date, b: Date)
    requires ValidDate(a) && ValidDate(b)
    ensures NotAfter(a, b) ==> MonthIndex(a) <= MonthIndex(b)
    ensures MonthIndex(a) < MonthIndex(b) ==> Before(a, b)
    ensures MonthIndex(a) == MonthIndex(b) ==> a.year == b.year && a.month == b.month
  {
  }

  lemma MonthIndexRoundTrip(d: Date)
    requires ValidDate(d)
    ensures MonthIndex(d) / 12 == d.year && MonthIndex(d) % 12 + 1 == d.month
    ensures MonthFragmentAt(MonthIndex(d)) == DayFragment(d)
  {
  }

  /** Every day from `d1` to `d2` lies in a month of the span. */
  lemma DayInMonthSpan(d1: Date, d2: Date, d: Date)
    requires ValidDate(d1) && ValidDate(d2) && ValidDate(d)
    requires NotAfter(d1, d) && NotAfter(d, d2)
    ensures DayFragment(d) in MonthSpan(d1, d2)
  {
    MonthIndexOrder(d1, d);
    MonthIndexOrder(d, d2);
    MonthIndexRoundTrip(d);
    var k := MonthIndex(d) - MonthIndex(d1);
    assert MonthSpan(d1, d2)[k] == DayFragment(d);
  }

  /** The first day of the month numbered `i`. */
  function MonthStart(i: nat): (d: Date)
    requires 12 * MinYear <= i < 12 * (MaxYear + 1)
    ensures ValidDate(d) && d.day == 1 && MonthIndex(d) == i
  {
    var y, mo := i / 12, i % 12 + 1;
    assert 1 <= mo <= 12;
    assert DaysInMonth(y, mo) >= 28;
    Date(y, mo, 1)
  }

  /** Every month of the span holds a day from `d1` to `d2`: the first day of the month, or `d1`
      itself for the first month. */
  lemma MonthSpanWitness(d1: Date, d2: Date, k: nat) returns (w: Date)
    requires ValidDate(d1) && ValidDate(d2) && NotAfter(d1, d2) && k < |MonthSpan(d1, d2)|
    ensures ValidDate(w) && NotAfter(d1, w) && NotAfter(w, d2)
    ensures DayFragment(w) == MonthSpan(d1, d2)[k]
  {
    if k == 0 {
      w := d1;
      FirstMonthOfSpan(d1, d2);
    } else {
      w := LaterMonthOfSpan(d1, d2, k);
    }
  }

  /** The first fragment of the span is the month of `d1`. */
  lemma FirstMonthOfSpan(d1: Date, d2: Date)
    requires ValidDate(d1) && ValidDate(d2) && 0 < |MonthSpan(d1, d2)|
    ensures MonthSpan(d1, d2)[0] == DayFragment(d1)
  {
    MonthIndexRoundTrip(d1);
  }

  /** A later fragment of the span is the month of that month's first day, which lies in range. */
  lemma LaterMonthOfSpan(d1: Date, d2: Date, k: nat) returns (w: Date)
    requires ValidDate(d1) && ValidDate(d2) && 0 < k < |MonthSpan(d1, d2)|
    ensures ValidDate(w) && NotAfter(d1, w) && NotAfter(w, d2)
    ensures DayFragment(w) == MonthSpan(d1, d2)[k]
  {
    MonthSpanAt(d1, d2, k);
    w := MonthStart(MonthIndex(d1) + k);
    MonthStartWithin(d1, d2, MonthIndex(d1) + k);
  }

  /** The first day of a later month of the span lies in the range. */
  lemma MonthStartWithin(d1: Date, d2: Date, i: nat)
    requires ValidDate(d1) && ValidDate(d2) && MonthIndex(d1) < i <= MonthIndex(d2)
    ensures NotAfter(d1, MonthStart(i)) && NotAfter(MonthStart(i), d2)
    ensures DayFragment(MonthStart(i)) == MonthFragmentAt(i)
  {
    var w := MonthStart(i);
    MonthIndexOrder(d1, w);
    MonthIndexOrder(w, d2);
    MonthIndexRoundTrip(w);
    if i == MonthIndex(d2) {
      MonthIndexOrder(d2, w);
    }
  }

  /** For years of four digits the span is strictly increasing in Python's string order. */
  lemma MonthSpanIncreasing(d1: Date, d2: Date)
    requires ValidDate(d1) && ValidDate(d2) && d1.year >= 1000
    ensures StrictlyIncreasing(MonthSpan(d1, d2))
  {
    var span := MonthSpan(d1, d2);
    forall i, j | 0 <= i < j < |span|
      ensures Less(span[i], span[j])
    {
      MonthSpanPairOrder(d1, d2, i, j);
    }
  }

  /** Entry `k` of the span is the fragment of the `k`-th month after the first. */
  lemma MonthSpanAt(d1: Date, d2: Date, k: nat)
    requires ValidDate(d1) && ValidDate(d2) && k < |MonthSpan(d1, d2)|
    ensures MonthIndex(d1) + k <= MonthIndex(d2)
    ensures MonthSpan(d1, d2)[k] == MonthFragmentAt(MonthIndex(d1) + k)
  {
  }

  lemma MonthSpanPairOrder(d1: Date, d2: Date, i: nat, j: nat)
    requires ValidDate(d1) && ValidDate(d2) && d1.year >= 1000
    requires i < j < |MonthSpan(d1, d2)|
    ensures Less(MonthSpan(d1, d2)[i], MonthSpan(d1, d2)[j])
  {
    MonthSpanAt(d1, d2, i);
    MonthSpanAt(d1, d2, j);
    MonthFragmentAtOrder(MonthIndex(d1) + i, MonthIndex(d1) + j);
  }

  lemma MonthFragmentAtOrder(a: nat, b: nat)
    requires 12 * 1000 <= a < b < 12 * (MaxYear + 1)
    ensures Less(MonthFragmentAt(a), MonthFragmentAt(b))
  {
    var da, db := MonthStart(a), MonthStart(b);
    MonthFragmentOrder(da.year, da.month, db.year, db.month);
  }

  // ---------------------------------------------------------------------------------------------
  // What each branch produces

  /** Monthly resolution: one fragment per year from the first year through the last, in
      ascending year order and without repetition. */
  lemma MonthlyOnePerYear(d1: Date, d2: Date)
    requires ValidDate(d1) && ValidDate(d2) && NotAfter(d1, d2)
    ensures var r := Fragments(Monthly, d1, d2);
      && r.Some?
      && |r.value| == d2.year - d1.year + 1
      && (forall y :: d1.year <= y <= d2.year ==> YearFragment(y) in r.value)
      && (forall x :: x in r.value ==> exists y :: d1.year <= y <= d2.year && x == YearFragment(y))
      && (forall i :: 0 <= i < |r.value| ==> r.value[i] == YearFragment(d1.year + i))
      && (forall i, j :: 0 <= i < j < |r.value| ==> r.value[i] != r.value[j])
  {
    var r := YearsOf(d1.year, d2.year);
    assert Fragments(Monthly, d1, d2) == Some(r);
    YearsOfMembers(d1.year, d2.year);
    YearsOfDistinct(d1.year, d2.year);
  }

  lemma YearsOfMembers(y1: nat, y2: int)
    requires y1 <= y2
    ensures forall y :: y1 <= y <= y2 ==> YearFragment(y) in YearsOf(y1, y2)
    ensures forall x :: x in YearsOf(y1, y2) ==> exists y :: y1 <= y <= y2 && x == YearFragment(y)
  {
    var r := YearsOf(y1, y2);
    forall y | y1 <= y <= y2
      ensures YearFragment(y) in r
    {
      assert r[y - y1] == YearFragment(y);
    }
    forall x | x in r
      ensures exists y :: y1 <= y <= y2 && x == YearFragment(y)
    {
      var i :| 0 <= i < |r| && r[i] == x;
      assert x == YearFragment(y1 + i);
    }
  }

  lemma YearsOfDistinct(y1: nat, y2: int)
    ensures forall i, j :: 0 <= i < j < |YearsOf(y1, y2)| ==> YearsOf(y1, y2)[i] != YearsOf(y1, y2)[j]
  {
    var r := YearsOf(y1, y2);
    forall i, j | 0 <= i < j < |r|
      ensures r[i] != r[j]
    {
      if r[i] == r[j] {
        YearFragmentInjective(y1 + i, y1 + j);
      }
    }
  }


  /** With four-digit years the monthly fragments also come out of `np.unique` in year order: they
      are strictly increasing in Python's string order. */
  lemma MonthlyAscending(d1: Date, d2: Date)
    requires ValidDate(d1) && ValidDate(d2) && NotAfter(d1, d2) && d1.year >= 1000
    ensures StrictlyIncreasing(Fragments(Monthly, d1, d2).value)
  {
    var r := Fragments(Monthly, d1, d2).value;
    assert |r| == d2.year - d1.year + 1;
    forall i, j | 0 <= i < j < |r|
      ensures Less(r[i], r[j])
    {
      assert r[i] == YearFragment(d1.year + i) && r[j] == YearFragment(d1.year + j);
      YearFragmentOrder(d1.year + i, d1.year + j);
    }
  }

  /** Python's string order on four-digit yearly fragments is the order of their years. */
  lemma YearFragmentOrder(a: nat, b: nat)
    requires 1000 <= a < b <= MaxYear
    ensures Less(YearFragment(a), YearFragment(b))
  {
    FourDigits(a);
    FourDigits(b);
    var sa, sb := NatToString(a), NatToString(b);
    assert YearFragment(a) == sa + ("01-" + sa + "12");
    assert YearFragment(b) == sb + ("01-" + sb + "12");
    LessSameLengthPrefix(sa, sb, "01-" + sa + "12", "01-" + sb + "12");
    LessDigitsIffValueLess(sa, sb);
  }

  /** Daily resolution within one year: `d2.month - d1.month + 1` fragments, one per month in
      ascending order, each from the 1st to the month's true last day. */
  lemma SingleYearDailyIsMonthSpan(d1: Date, d2: Date)
    requires ValidDate(d1) && ValidDate(d2) && NotAfter(d1, d2) && d1.year == d2.year
    ensures Fragments(Daily, d1, d2) == Some(MonthSpan(d1, d2))
    ensures |MonthSpan(d1, d2)| == d2.month - d1.month + 1
  {
    var r := MonthsOfYear(d1.year, d1.month, d2.month);
    assert Fragments(Daily, d1, d2) == Some(r);
    MonthsOfYearIsSpan(d1, d2);
  }

  /** Within one year, the months from `d1`'s through `d2`'s are the span of the range. */
  lemma MonthsOfYearIsSpan(d1: Date, d2: Date)
    requires ValidDate(d1) && ValidDate(d2) && NotAfter(d1, d2) && d1.year == d2.year
    ensures MonthsOfYear(d1.year, d1.month, d2.month) == MonthSpan(d1, d2)
  {
    var r := MonthsOfYear(d1.year, d1.month, d2.month);
    var span := MonthSpan(d1, d2);
    assert |r| == |span| == d2.month - d1.month + 1;
    forall k | 0 <= k < |r|
      ensures r[k] == span[k]
    {
      MonthsOfYearAt(d1.year, d1.month, d2.month, k);
      MonthSpanAt(d1, d2, k);
      assert MonthIndex(d1) + k == 12 * d1.year + (d1.month - 1 + k);
    }
  }

  /** The `k`-th month of a year's run is the month numbered `12 * y + m1 - 1 + k`. */
  lemma MonthsOfYearAt(y: nat, m1: int, m2: int, k: nat)
    requires 1 <= m1 && m2 <= 12 && k <= m2 - m1
    ensures MonthsOfYear(y, m1, m2)[k] == MonthFragmentAt(12 * y + (m1 - 1 + k))
  {
    DivMod12(y, m1 - 1 + k);
  }

  lemma DivMod12(y: int, r: int)
    requires 0 <= r < 12
    ensures (12 * y + r) / 12 == y && (12 * y + r) % 12 == r
  {
  }


  /** Daily resolution over several years: whatever the years, the result is sorted, has no
      duplicates, and holds exactly the fragments of the months touched by the range. */
  lemma MultiYearDailyIsSortedSpan(d1: Date, d2: Date)
    requires ValidDate(d1) && ValidDate(d2) && d1.year < d2.year && d2 != MaxDate
    ensures var r := Fragments(Daily, d1, d2);
      && r.Some?
      && StrictlyIncreasing(r.value)
      && forall x :: x in r.value <==> x in MonthSpan(d1, d2)
  {
    var days := DateRangeList(d1, d2).value;
    assert Fragments(Daily, d1, d2) == Some(SortedDistinct(DayFragments(days)));
    forall x
      ensures x in DayFragments(days) <==> x in MonthSpan(d1, d2)
    {
      DailyFragmentInSpan(d1, d2, x);
    }
  }

  /** A fragment comes from some day of the range exactly when it names a month of the span. */
  lemma DailyFragmentInSpan(d1: Date, d2: Date, x: string)
    requires ValidDate(d1) && ValidDate(d2) && NotAfter(d1, d2) && d2 != MaxDate
    ensures x in DayFragments(DateRangeList(d1, d2).value) <==> x in MonthSpan(d1, d2)
  {
    if x in DayFragments(DateRangeList(d1, d2).value) {
      ListedDayInSpan(d1, d2, x);
    }
    if x in MonthSpan(d1, d2) {
      SpanMonthListed(d1, d2, x);
    }
  }

  lemma ListedDayInSpan(d1: Date, d2: Date, x: string)
    requires ValidDate(d1) && ValidDate(d2) && NotAfter(d1, d2) && d2 != MaxDate
    requires x in DayFragments(DateRangeList(d1, d2).value)
    ensures x in MonthSpan(d1, d2)
  {
    var days := DateRangeList(d1, d2).value;
    var i :| 0 <= i < |days| && DayFragments(days)[i] == x;
    DayInMonthSpan(d1, d2, days[i]);
  }

  lemma SpanMonthListed(d1: Date, d2: Date, x: string)
    requires ValidDate(d1) && ValidDate(d2) && NotAfter(d1, d2) && d2 != MaxDate
    requires x in MonthSpan(d1, d2)
    ensures x in DayFragments(DateRangeList(d1, d2).value)
  {
    var span := MonthSpan(d1, d2);
    var k :| 0 <= k < |span| && span[k] == x;
    var w := MonthSpanWitness(d1, d2, k);
    DateRangeListCovers(d1, d2, w);
    ListedFragment(DateRangeList(d1, d2).value, w);
  }

  lemma ListedFragment(days: seq<Date>, w: Date)
    requires forall i :: 0 <= i < |days| ==> ValidDate(days[i])
    requires w in days
    ensures DayFragment(w) in DayFragments(days)
  {
    var i :| 0 <= i < |days| && days[i] == w;
    assert DayFragments(days)[i] == DayFragment(w);
  }

  /** With four-digit years, `np.unique`'s string order is calendar order, so the multi-year
      daily fragments are exactly the months from `d1`'s through `d2`'s, chronologically. */
  lemma MultiYearDailyIsMonthSpan(d1: Date, d2: Date)
    requires ValidDate(d1) && ValidDate(d2) && d1.year < d2.year && d2 != MaxDate
    requires d1.year >= 1000
    ensures Fragments(Daily, d1, d2) == Some(MonthSpan(d1, d2))
  {
    MultiYearDailyIsSortedSpan(d1, d2);
    MonthSpanIncreasing(d1, d2);
    StrictlyIncreasingUnique(Fragments(Daily, d1, d2).value, MonthSpan(d1, d2));
  }

  // ---------------------------------------------------------------------------------------------
  // Worked cases

  /** A monthly request inside 2020 needs the single file of 2020. */
  lemma MonthlyWithinOneYear()
    ensures Fragments(Monthly, Date(2020, 1, 1), Date(2020, 12, 31)) == Some(["202001-202012"])
  {
    var r := Fragments(Monthly, Date(2020, 1, 1), Date(2020, 12, 31)).value;
    assert |r| == 1 && r[0] == YearFragment(2020);
    assert YearFragment(2020) == "202001-202012" by {
      assert NatToString(2020) == "2020";
    }
    assert r == ["202001-202012"];
  }

  /** A daily fragment assembled from its rendered year, month and month length. */
  lemma MonthFragmentOf(y: nat, m: int, ys: string, ms: string, ds: string)
    requires 1 <= m <= 12
    requires NatToString(y) == ys && ZeroPad2(m) == ms && NatToString(DaysInMonth(y, m)) == ds
    ensures MonthFragment(y, m) == ys + ms + "01-" + ys + ms + ds
  {
  }

  lemma PaddedMonths()
    ensures ZeroPad2(1) == "01" && ZeroPad2(2) == "02" && ZeroPad2(3) == "03" && ZeroPad2(12) == "12"
  {
    assert NatToString(1) == "1";
    assert ZeroPad2(12) == NatToString(1) + [DigitChar(2)];
  }

  lemma MonthLengths()
    ensures NatToString(28) == "28" && NatToString(29) == "29" && NatToString(31) == "31"
  {
    assert NatToString(2) == "2" && NatToString(3) == "3";
  }

  /** February 2020 (a leap year) ends on the 29th. */
  lemma LeapFebruary()
    ensures MonthFragment(2020, 2) == "20200201-20200229"
  {
    Year2020();
    PaddedMonths();
    MonthLengths();
    assert DaysInMonth(2020, 2) == 29;
    MonthFragmentOf(2020, 2, "2020", "02", "29");
  }

  /** February 2019 ends on the 28th. */
  lemma CommonFebruary()
    ensures MonthFragment(2019, 2) == "20190201-20190228"
  {
    Year2019();
    PaddedMonths();
    MonthLengths();
    assert DaysInMonth(2019, 2) == 28;
    MonthFragmentOf(2019, 2, "2019", "02", "28");
  }

  /** 1900 is not a leap year (divisible by 100, not by 400). */
  lemma CenturyFebruary()
    ensures MonthFragment(1900, 2) == "19000201-19000228"
  {
    Year1900();
    PaddedMonths();
    MonthLengths();
    assert DaysInMonth(1900, 2) == 28;
    MonthFragmentOf(1900, 2, "1900", "02", "28");
  }

  lemma Year2020()
    ensures NatToString(2020) == "2020"
  {
    assert NatToString(202) == "202";
  }

  lemma Year2019()
    ensures NatToString(2019) == "2019"
  {
    assert NatToString(201) == "201";
  }

  lemma Year1900()
    ensures NatToString(1900) == "1900"
  {
    assert NatToString(190) == "190";
  }

  lemma Year999()
    ensures NatToString(999) == "999"
  {
    assert NatToString(99) == "99";
  }

  lemma Year1000()
    ensures NatToString(1000) == "1000"
  {
    assert NatToString(100) == "100";
  }

  lemma January2020()
    ensures MonthFragment(2020, 1) == "20200101-20200131"
  {
    Year2020();
    PaddedMonths();
    MonthLengths();
    assert DaysInMonth(2020, 1) == 31;
    MonthFragmentOf(2020, 1, "2020", "01", "31");
  }

  lemma March2020()
    ensures MonthFragment(2020, 3) == "20200301-20200331"
  {
    Year2020();
    PaddedMonths();
    MonthLengths();
    assert DaysInMonth(2020, 3) == 31;
    MonthFragmentOf(2020, 3, "2020", "03", "31");
  }

  /** Daily, 2020-01-15 to 2020-03-10: the three files of January, February and March. */
  lemma DailyWithinOneYear()
    ensures Fragments(Daily, Date(2020, 1, 15), Date(2020, 3, 10))
         == Some(["20200101-20200131", "20200201-20200229", "20200301-20200331"])
  {
    LeapFebruary();
    January2020();
    March2020();
    var r := Fragments(Daily, Date(2020, 1, 15), Date(2020, 3, 10)).value;
    assert |r| == 3;
    assert r[0] == MonthFragment(2020, 1) && r[1] == MonthFragment(2020, 2) && r[2] == MonthFragment(2020, 3);
    assert r == ["20200101-20200131", "20200201-20200229", "20200301-20200331"];
  }

  lemma December999()
    ensures MonthFragment(999, 12) == "9991201-9991231"
  {
    Year999();
    assert DaysInMonth(999, 12) == 31;
    PaddedMonths();
    MonthLengths();
    MonthFragmentOf(999, 12, "999", "12", "31");
  }

  lemma January1000()
    ensures MonthFragment(1000, 1) == "10000101-10000131"
  {
    Year1000();
    assert DaysInMonth(1000, 1) == 31;
    PaddedMonths();
    MonthLengths();
    MonthFragmentOf(1000, 1, "1000", "01", "31");
  }

  lemma TwoDaysAcrossYear1000()
    ensures DateRangeList(Date(999, 12, 31), Date(1000, 1, 1))
         == Some([Date(999, 12, 31), Date(1000, 1, 1)])
  {
    var s, e := Date(999, 12, 31), Date(1000, 1, 1);
    assert Next(s) == e;
    assert ValidDate(s) && ValidDate(e) && NotAfter(s, e) && s != MaxDate && s != e;
    assert DateRangeList(e, e) == Some([e]);
    assert DateRangeList(s, e) == Some([s] + [e]);
    assert [s] + [e] == [s, e];
  }

  /** Before year 1000 `%d` writes fewer than four digits and `np.unique`'s string order is not
      calendar order: 1000-01 is listed before 0999-12. */
  lemma UniqueOrderIsLexicographic()
    ensures Fragments(Daily, Date(999, 12, 31), Date(1000, 1, 1))
         == Some(["10000101-10000131", "9991201-9991231"])
  {
    TwoDaysAcrossYear1000();
    var a, b := "9991201-9991231", "10000101-10000131";
    var days := [Date(999, 12, 31), Date(1000, 1, 1)];
    DaysAcrossYear1000();
    assert Fragments(Daily, Date(999, 12, 31), Date(1000, 1, 1)) == Some(SortedDistinct(DayFragments(days)));
    UniqueOfTwo(a, b);
  }

  lemma DaysAcrossYear1000()
    ensures DayFragments([Date(999, 12, 31), Date(1000, 1, 1)]) == ["9991201-9991231", "10000101-10000131"]
  {
    December999();
    January1000();
  }

  /** `np.unique` of two strings, the second of which sorts first. */
  lemma UniqueOfTwo(a: string, b: string)
    requires Less(b, a)
    ensures SortedDistinct([a, b]) == [b, a]
  {
    assert [a, b][..1] == [a];
    assert SortedDistinct([a]) == [a] by {
      assert [a][..0] == [];
    }
    assert SortedDistinct([a, b]) == Insert([a], b);
    LessIrreflexive(a);
    assert b != a;
    assert Insert([a], b) == [b, a];
  }

}

=== FILE: text.dfy ===
/** Character strings as the script uses them: decimal rendering with `%d` and `%02d`,
    Python's ordering of `str` values, `str.split` and `str.replace(c, '', 1)`. */
module Text {

  predicate IsDigit(c: char) {
    '0' <= c <= '9'
  }

  function DigitValue(c: char): (v: nat)
    requires IsDigit(c)
    ensures v < 10
  {
    (c as int) - ('0' as int)
  }

  function DigitChar(d: nat): (c: char)
    requires d < 10
    ensures IsDigit(c) && DigitValue(c) == d
  {
    (('0' as int) + d) as char
  }

  predicate AllDigits(s: string) {
    forall i :: 0 <= i < |s| ==> IsDigit(s[i])
  }

  function Pow10(n: nat): (p: nat)
    ensures p >= 1
  {
    if n == 0 then 1 else 10 * Pow10(n - 1)
  }

  /** The number a string of decimal digits denotes, read from the most significant digit. */
  function Value(s: string): nat
    requires AllDigits(s)
  {
    if s == [] then 0 else DigitValue(s[0]) * Pow10(|s| - 1) + Value(s[1..])
  }

  /** A string of `k` digits denotes a number below `10^k`. */
  lemma {:induction false} ValueBound(s: string)
    requires AllDigits(s)
    ensures Value(s) < Pow10(|s|)
  {
    if s != [] {
      ValueBound(s[1..]);
      var d, p, r := DigitValue(s[0]), Pow10(|s| - 1), Value(s[1..]);
      assert Value(s) == d * p + r;
      assert d * p + p == (d + 1) * p;
      MulMonotone(d + 1, 10, p);
      assert Pow10(|s|) == 10 * p;
    }
  }

  /** Appending a digit multiplies the value by ten and adds the digit. */
  lemma {:induction false} ValueSnoc(s: string, c: char)
    requires AllDigits(s) && IsDigit(c)
    ensures AllDigits(s + [c])
    ensures Value(s + [c]) == 10 * Value(s) + DigitValue(c)
  {
    if s == [] {
      assert [] + [c] == [c];
    } else {
      var t := s + [c];
      assert t[0] == s[0] && t[1..] == s[1..] + [c];
      ValueSnoc(s[1..], c);
      var d, p := DigitValue(s[0]), Pow10(|s| - 1);
      assert Pow10(|t| - 1) == 10 * p;
      assert Value(t) == d * (10 * p) + Value(t[1..]);
      ShiftStep(d, p, Value(s[1..]), DigitValue(c));
    }
  }

  /** Reading two digit strings one after the other shifts the first by the length of the second. */
  lemma {:induction false} ValueConcat(a: string, b: string)
    requires AllDigits(a) && AllDigits(b)
    ensures AllDigits(a + b)
    ensures Value(a + b) == Value(a) * Pow10(|b|) + Value(b)
    decreases |b|
  {
    if b == [] {
      assert a + b == a;
    } else {
      var init, c := b[..|b| - 1], b[|b| - 1];
      assert b == init + [c];
      assert a + b == (a + init) + [c];
      ValueConcat(a, init);
      ValueSnoc(a + init, c);
      ValueSnoc(init, c);
      var x, p, y, d := Value(a), Pow10(|init|), Value(init), DigitValue(c);
      assert Value(a + init) == x * p + y;
      assert Value(a + b) == 10 * (x * p + y) + d;
      assert Value(b) == 10 * y + d;
      assert Pow10(|b|) == 10 * p;
      ShiftStep(x, p, y, d);
    }
  }

  lemma ShiftStep(x: int, p: int, y: int, d: int)
    ensures 10 * (x * p + y) + d == x * (10 * p) + (10 * y + d)
  {
    assert 10 * (x * p) == x * (10 * p);
  }

  /** Python's `'%d' % n` for a non-negative `n`: decimal digits, no leading zero. */
  function NatToString(n: nat): (s: string)
    ensures |s| >= 1 && AllDigits(s)
    ensures Value(s) == n
    ensures |s| == 1 || s[0] != '0'
  {
    if n < 10 then [DigitChar(n)]
    else
      var prefix := NatToString(n / 10);
      ValueSnoc(prefix, DigitChar(n % 10));
      prefix + [DigitChar(n % 10)]
  }

  /** A number has exactly `k` decimal digits when it lies in `[10^(k-1), 10^k)`. */
  lemma {:induction false} NatToStringLength(n: nat, k: nat)
    requires k >= 1 && Pow10(k - 1) <= n < Pow10(k)
    ensures |NatToString(n)| == k
  {
    if n >= 10 {
      assert k >= 2;
      assert Pow10(k - 2) <= n / 10 < Pow10(k - 1);
      NatToStringLength(n / 10, k - 1);
    }
  }

  /** Years from 1000 on are written with four digits. */
  lemma FourDigits(n: nat)
    requires 1000 <= n <= 9999
    ensures |NatToString(n)| == 4
  {
    assert Pow10(3) == 1000 && Pow10(4) == 10000;
    NatToStringLength(n, 4);
  }

  /** Python's `'%02d' % n` for a non-negative `n`. */
  function ZeroPad2(n: nat): (s: string)
    ensures AllDigits(s) && Value(s) == n
    ensures n < 100 ==> |s| == 2
  {
    if n < 10 then
      var s := ['0', DigitChar(n)];
      assert s[1..] == [DigitChar(n)];
      assert Value(s) == 0 * Pow10(1) + Value([DigitChar(n)]);
      s
    else if n < 100 then
      NatToStringLength(n, 2);
      NatToString(n)
    else NatToString(n)
  }

  /** Python's `a < b` on `str`: code-point lexicographic order, a proper prefix first. */
  predicate Less(a: string, b: string)
    decreases |a|
  {
    if a == [] then b != []
    else if b == [] then false
    else if a[0] == b[0] then Less(a[1..], b[1..])
    else a[0] < b[0]
  }

  lemma {:induction false} LessIrreflexive(a: string)
    ensures !Less(a, a)
  {
    if a != [] {
      LessIrreflexive(a[1..]);
    }
  }

  lemma {:induction false} LessAsymmetric(a: string, b: string)
    requires Less(a, b)
    ensures !Less(b, a)
  {
    if a != [] && b != [] && a[0] == b[0] {
      LessAsymmetric(a[1..], b[1..]);
    }
  }

  lemma {:induction false} LessTransitive(a: string, b: string, c: string)
    requires Less(a, b) && Less(b, c)
    ensures Less(a, c)
  {
    if a != [] && a[0] == b[0] && b[0] == c[0] {
      LessTransitive(a[1..], b[1..], c[1..]);
    }
  }

  lemma {:induction false} LessTotal(a: string, b: string)
    requires a != b
    ensures Less(a, b) || Less(b, a)
  {
    if a != [] && b != [] && a[0] == b[0] {
      assert a == [a[0]] + a[1..] && b == [b[0]] + b[1..];
      LessTotal(a[1..], b[1..]);
    }
  }

  /** Between strings of equal length the first difference decides, whatever follows. */
  lemma {:induction false} LessSameLengthPrefix(a: string, b: string, x: string, y: string)
    requires |a| == |b| && a != b
    ensures Less(a + x, b + y) <==> Less(a, b)
  {
    assert a != [] && b != [];
    assert (a + x)[0] == a[0] && (b + y)[0] == b[0];
    if a[0] == b[0] {
      assert a[1..] != b[1..] by {
        assert a == [a[0]] + a[1..] && b == [b[0]] + b[1..];
      }
      assert (a + x)[1..] == a[1..] + x && (b + y)[1..] == b[1..] + y;
      LessSameLengthPrefix(a[1..], b[1..], x, y);
    }
  }

  /** For digit strings of equal length, string order is numeric order. */
  lemma {:induction false} LessDigitsIffValueLess(a: string, b: string)
    requires |a| == |b| && AllDigits(a) && AllDigits(b)
    ensures Less(a, b) <==> Value(a) < Value(b)
  {
    if a != [] {
      if a[0] == b[0] {
        LessDigitsIffValueLess(a[1..], b[1..]);
        SameLeadingDigit(a, b);
      } else {
        LeadingDigitOrder(a, b);
      }
    }
  }

  /** Equal leading digits cancel: the comparison moves to the rest. */
  lemma SameLeadingDigit(a: string, b: string)
    requires |a| == |b| > 0 && AllDigits(a) && AllDigits(b) && a[0] == b[0]
    ensures Value(a) - Value(b) == Value(a[1..]) - Value(b[1..])
    ensures Less(a, b) == Less(a[1..], b[1..])
  {
    var p := Pow10(|a| - 1);
    assert DigitValue(a[0]) * p == DigitValue(b[0]) * p;
  }

  /** Different leading digits decide both orders. */
  lemma LeadingDigitOrder(a: string, b: string)
    requires |a| == |b| > 0 && AllDigits(a) && AllDigits(b) && a[0] != b[0]
    ensures Less(a, b) <==> Value(a) < Value(b)
  {
    if a[0] < b[0] {
      SmallerLeadingDigit(a, b);
    } else {
      SmallerLeadingDigit(b, a);
      LessAsymmetric(b, a);
    }
  }

  lemma SmallerLeadingDigit(a: string, b: string)
    requires |a| == |b| > 0 && AllDigits(a) && AllDigits(b) && a[0] < b[0]
    ensures Less(a, b) && Value(a) < Value(b)
  {
    var p := Pow10(|a| - 1);
    var da, db := DigitValue(a[0]), DigitValue(b[0]);
    var ra, rb := Value(a[1..]), Value(b[1..]);
    assert Value(a) == da * p + ra && Value(b) == db * p + rb;
    ValueBound(a[1..]);
    LeadingDigitDecides(da, db, ra, rb, p);
  }

  /** A smaller leading digit wins whatever the lower places hold. */
  lemma LeadingDigitDecides(x: nat, y: nat, rx: nat, ry: nat, p: nat)
    requires x < y && rx < p
    ensures x * p + rx < y * p + ry
  {
    assert x * p + p == (x + 1) * p;
    MulMonotone(x + 1, y, p);
  }

  lemma MulMonotone(x: nat, y: nat, p: nat)
    requires x <= y
    ensures x * p <= y * p
  {
  }

  /** Index of the first occurrence of `c` in `s`. */
  function FirstIndex(s: string, c: char): (i: nat)
    requires c in s
    ensures i < |s| && s[i] == c && c !in s[..i]
  {
    if s[0] == c then 0
    else
      var i := 1 + FirstIndex(s[1..], c);
      assert s[..i] == [s[0]] + s[1..][..i - 1];
      i
  }

  /** Python's `s.split(sep)` for a one-character separator. */
  function Split(s: string, sep: char): (parts: seq<string>)
    ensures |parts| >= 1
    ensures forall k :: 0 <= k < |parts| ==> sep !in parts[k]
    decreases |s|
  {
    if sep !in s then [s]
    else
      var i := FirstIndex(s, sep);
      [s[..i]] + Split(s[i + 1..], sep)
  }

  /** Python's `sep.join(parts)`. */
  function Join(parts: seq<string>, sep: char): string
    requires |parts| >= 1
  {
    if |parts| == 1 then parts[0] else parts[0] + [sep] + Join(parts[1..], sep)
  }

  /** Splitting loses nothing: joining the fields again restores the input. */
  lemma {:induction false} JoinSplit(s: string, sep: char)
    ensures Join(Split(s, sep), sep) == s
    decreases |s|
  {
    if sep in s {
      var i := FirstIndex(s, sep);
      var parts := Split(s, sep);
      assert parts[1..] == Split(s[i + 1..], sep);
      JoinSplit(s[i + 1..], sep);
      assert s == s[..i] + [sep] + s[i + 1..];
    }
  }

  /** Python's `s.replace(c, '', 1)`: the first occurrence of `c` removed. */
  function RemoveFirst(s: string, c: char): (r: string)
    ensures c in s ==> |r| == |s| - 1
    ensures c !in s ==> r == s
  {
    if c in s then
      var i := FirstIndex(s, c);
      s[..i] + s[i + 1..]
    else s
  }

  /** Removal skips a leading character other than the one removed. */
  lemma RemoveFirstPastHead(s: string, c: char)
    requires |s| > 0 && s[0] != c
    ensures RemoveFirst(s, c) == [s[0]] + RemoveFirst(s[1..], c)
  {
    assert s == [s[0]] + s[1..];
    if c in s {
      var i := FirstIndex(s, c);
      assert c in s[1..];
      var j := FirstIndex(s[1..], c);
      assert s[..j + 1] == [s[0]] + s[1..][..j];
    }
  }

  /** Removal touches no other character. */
  lemma {:induction false} RemoveFirstKeeps(s: string, c: char, d: char)
    requires c != d
    ensures d in RemoveFirst(s, c) <==> d in s
  {
    if c in s {
      var i := FirstIndex(s, c);
      assert s == s[..i] + [c] + s[i + 1..];
    }
  }

  /** Joining fields that do not contain the separator and splitting again gives the fields back. */
  lemma {:induction false} SplitJoin(parts: seq<string>, sep: char)
    requires |parts| >= 1
    requires forall k :: 0 <= k < |parts| ==> sep !in parts[k]
    ensures Split(Join(parts, sep), sep) == parts
  {
    if |parts| > 1 {
      var s := Join(parts, sep);
      var rest := Join(parts[1..], sep);
      assert s == parts[0] + [sep] + rest;
      var n := |parts[0]|;
      assert s[n] == sep && s[..n] == parts[0];
      assert FirstIndex(s, sep) == n by {
        assert s[..n + 1] == parts[0] + [sep];
      }
      assert s[n + 1..] == rest;
      SplitJoin(parts[1..], sep);
      assert parts == [parts[0]] + parts[1..];
    }
  }

  lemma AllDigitsConcat(a: string, b: string)
    ensures AllDigits(a + b) <==> AllDigits(a) && AllDigits(b)
  {
    if AllDigits(a + b) {
      forall k | 0 <= k < |a| ensures IsDigit(a[k]) {
        assert (a + b)[k] == a[k];
      }
      forall k | 0 <= k < |b| ensures IsDigit(b[k]) {
        assert (a + b)[|a| + k] == b[k];
      }
    }
  }

  /** A digit string holds no other character. */
  lemma DigitsExclude(s: string, c: char)
    requires AllDigits(s) && !IsDigit(c)
    ensures c !in s
  {
    forall k | 0 <= k < |s| ensures s[k] != c {
      assert IsDigit(s[k]);
    }
  }

  /** The ASCII part of Python's `str.isnumeric()`: non-empty and all decimal digits. */
  predicate IsNumeric(s: string) {
    |s| > 0 && AllDigits(s)
  }
}

=== FILE: wrappers.dfy ===
/** Failure-carrying result types shared by the other modules. */
module Wrappers {

  /** A value that may be absent; `None` stands for a Python exception the script does not catch. */
  datatype Option<+T> = None | Some(value: T)

  /** A value or the error that aborted the computation. */
  datatype Result<+T, +E> = Ok(value: T) | Err(error: E)
}
